=== FILE: README.md ===
# RTMC client and card emulator — a Dafny model

This project models the protocol logic of `rtmc_client`. The library has two halves:

- **the RTMC card emulator** (`EmulationServer`). It accepts a TCP connection and takes the first message as an authentication attempt: everything from index 5 on must equal the token. After that it answers `auth` and `discover <glob>` commands with fixed JSON strings.
- **the client session object** (`Device`). It connects and authenticates, sends raw commands and disconnects, all over one optional socket handle.

Sockets are abstracted away. What the network does is an input: a sequence of receive events for the emulator, or an outcome per call for the client. Every operation is a pure function.

Modules:

- `Text` (`text.dfy`): the Python string primitives the code relies on. These are `s.split(" ")[0]`, the slice `s[n:]`, and `str(int)` with a read-back proof.
- `Json` (`json.dfy`): the decoded form of the reply objects, and the `.get("status") == "OKAY"` test.
- `Glob` (`glob.dfy`): `fnmatch.fnmatchcase`. The pattern is translated into tokens: `*`, `?`, literals, and bracket classes with ranges and `!`. An unclosed `[` is a literal. A backtracking matcher is proved equal to a reference meaning that splits the name with an existential.
- `Emulator` (`emulator.dfy`): the configuration and the reply datatype. It holds `Render`, which produces the exact reply texts, and the three handlers `_auth_command`, `_discover_command` and `_command_invoke`. It also gives a typed-command reading of the dispatcher, proved to agree with the string slicing.
- `Session` (`session.dfy`): the per-connection loop of `_tcp_server` as a transition function over `AwaitingAuth | Authenticated | Closed`. It comes in two versions. `StepAsWritten`/`RunAsWritten`/`ServeAsWritten` are the loop as written, where a receive timeout ends the connection. `Step`/`RunFrom`/`Serve` are the corrected loop from "## Findings", where a timeout leaves the state unchanged. The two agree on every input without a timeout. A closed-form reference description is proved equal to the corrected loop (`Session.Serve`). The loop as written equals the same closed form up to the first timeout, and is closed from there on (`Session.ServeAsWrittenMatchesExpected`).
- `Client` (`client.dfy`): `Device.connect`, `disconnect` and `send`. Each takes an environment outcome and returns the response, the messages written and the new device. One lemma covers a whole sequence of calls: the device is connected exactly when some connect was accepted and no disconnect followed it.
- `Interop` (`interop.dfy`): the client against the emulator. The message `connect` writes is fed through the emulator's loop as written, and the decoded reply is fed back to `connect`.

Matching is pinned to case-sensitive `fnmatchcase`. The source calls `fnmatch.fnmatch`, which case-folds on Windows. Bracket classes follow the `fnmatch.translate` of CPython releases that delete empty ranges before building the regular expression (the step commented "Remove empty ranges -- invalid in RE."):

- a `]` right after `[` or `[!` is a member;
- a hyphen at either end of the class is literal;
- a reversed range such as `c-a` contains nothing;
- whether a class is negated is decided after the empty ranges are deleted, so `[c-a!]` matches any one character and `[c-a!x]` any character but `x`.

The translation keeps consecutive `*` as separate tokens, where the library merges them. `Glob.DoubledRunIsOneRun` shows the two match the same names.

The model follows the code in these places, where it behaves differently from what the protocol suggests:

- **Authentication.** `_auth_command` compares `command[5:]` with the token and never checks that the message begins with `auth `. So `xyzzy<token>` authenticates a fresh connection (`Emulator.AuthIgnoresKeyword`). With an empty token, any message of at most five characters authenticates. A message such as `xyz` is rejected only because its slice differs from a non-empty token.
- **Concurrency.** Connections are handled one at a time inside the accept thread. There is no thread per connection.
- **UDP.** No UDP listener exists.
- **`send` failures.** A transport failure in `send` propagates and does not clear the handle.

## Model

| member | source | states |
|---|---|---|
| Text.FirstWord | src/rtmc_client/emulation_server.py:140 | the first word is the longest prefix without a space, and the character after it, if any, is a space |
| Text.FirstWordUnique | src/rtmc_client/emulation_server.py:140 | any space-free prefix that ends at a space or at the end of the text is the first word |
| Text.SliceFrom | src/rtmc_client/emulation_server.py:152 | the slice is what remains after the first `n` characters, and is empty when `n` is past the end |
| Text.IntToStringRoundTrip | src/rtmc_client/emulation_server.py:174 | the port written with `str` into the discovery reply reads back as the same integer, negatives included |
| Glob.ClassStart | src/rtmc_client/emulation_server.py:170 | the search for the closing `]` starts past the `[`, past a `!` right after it, and past a `]` that directly follows those |
| Glob.ClassClose | src/rtmc_client/emulation_server.py:170 | the class is closed by the first `]` at or after where the search starts, so a `]` right after `[` or `[!` never closes it; the class is unclosed iff no `]` lies there |
| Glob.LiveItems | src/rtmc_client/emulation_server.py:170 | deleting the empty ranges at the front of a class body drops only reversed ranges and leaves a remainder that is empty or starts with a live item |
| Glob.ClassToken | src/rtmc_client/emulation_server.py:170 | a body starting with `!` is negated; a non-negated class holds exactly the parsed items; a negated one starts with `!` or with an empty range that is deleted before the `!` is seen |
| Glob.EmptyRangeBeforeBang | src/rtmc_client/emulation_server.py:170 | for every reversed range `lo-hi`, the body `lo-hi!rest` builds the same class as `!rest`: the negation of `rest`'s items |
| Glob.EmptyRangeBeforeBangExample | src/rtmc_client/emulation_server.py:170 | `[c-a!]` matches any character, and `[c-a!x]` matches `y` but not `x` |
| Glob.ParseItems | src/rtmc_client/emulation_server.py:170 | a class body without a hyphen becomes one single-character item per character, in order |
| Glob.SingleRangeClass | src/rtmc_client/emulation_server.py:170 | for all ends, the one-range class `[lo-hi]` accepts exactly the characters from `lo` to `hi`, and nothing when the range is reversed |
| Glob.TrailingHyphenItems | src/rtmc_client/emulation_server.py:170 | a hyphen at the end of a hyphen-free body is a literal member: the class holds exactly the body's characters and `-` |
| Glob.LeadingHyphenItems | src/rtmc_client/emulation_server.py:170 | a hyphen at the start of a hyphen-free body is a literal member: the class holds exactly the body's characters and `-` |
| Glob.HyphenFreeClass | src/rtmc_client/emulation_server.py:170 | a class without a hyphen accepts exactly its listed characters, or with a leading `!` exactly the characters it does not list |
| Glob.Compile | src/rtmc_client/emulation_server.py:170 | translation yields at most one token per pattern character, exactly one when there is no `[`, and no run token when the pattern has no `*` |
| Glob.Matches | src/rtmc_client/emulation_server.py:170 | a token sequence without a run matches only names of exactly its length |
| Glob.Fnmatch | src/rtmc_client/emulation_server.py:170 | a name matches a pattern iff it splits over the pattern's tokens by the reference meaning |
| Glob.FnmatchByFirstCharacter | src/rtmc_client/emulation_server.py:170 | for every name and pattern: `*` leaves some suffix to the rest; `?` takes one character; a closed class takes one character the class accepts and the rest matches after the `]`; an unclosed `[` and every other character take exactly themselves |
| Glob.StarFreeLength | src/rtmc_client/emulation_server.py:170 | a pattern with neither `*` nor `[` matches only names as long as the pattern |
| Glob.MatchesIffDenotes | src/rtmc_client/emulation_server.py:170 | the backtracking matcher accepts a name iff the name splits over the tokens, with `*` taking any run and every other token one accepted character |
| Glob.StarMatchesEveryName | src/rtmc_client/emulation_server.py:170 | pattern `*` matches every service name, the empty one included |
| Glob.StarPrefix | src/rtmc_client/emulation_server.py:170 | `*p` matches a name iff some suffix of the name matches `p` |
| Glob.QuestionConsumesOne | src/rtmc_client/emulation_server.py:170 | `?p` matches a name iff the name is non-empty and its tail matches `p` |
| Glob.DoubledRunIsOneRun | src/rtmc_client/emulation_server.py:170 | two consecutive `*` match the same names as one |
| Glob.PlainPatternMatchesIffEqual | src/rtmc_client/emulation_server.py:170 | a pattern with no `*`, no `?` and no `]` anywhere after a `[` matches exactly the name equal to it |
| Glob.PrefixStarMatchesIffPrefix | src/rtmc_client/emulation_server.py:170 | `prefix*`, with no metacharacter in the prefix, matches exactly the names starting with the prefix |
| Glob.RangeClassExample | src/rtmc_client/emulation_server.py:170 | `[a-c]` accepts `b` and rejects `d` |
| Glob.NegatedClassExample | src/rtmc_client/emulation_server.py:170 | `[!a-c]` accepts `d` and rejects `b` |
| Glob.BracketFirstExample | src/rtmc_client/emulation_server.py:170 | `[]]` is a class holding `]` |
| Glob.HyphenExamples | src/rtmc_client/emulation_server.py:170 | a trailing hyphen in a class is literal, and the reversed range `[c-a]` matches nothing |
| Glob.UnclosedBracketExample | src/rtmc_client/emulation_server.py:170 | an unclosed `[` is matched as an ordinary character |
| Json.IsOkay | src/rtmc_client/emulation_server.py:120 | the OKAY object passes the status test, an error object never does, and the empty object never does |
| Emulator.WithDefaults | src/rtmc_client/emulation_server.py:20-35 | the constructor with only the token keeps the token and port 65001, and its service name matches `rtmc*` but not `bad_query` |
| Emulator.Render | src/rtmc_client/emulation_server.py:147-181 | every reply text is a braced object, and the text is exactly `{}` iff the reply is a discovery miss |
| Emulator.RenderDistinguishesReplies | src/rtmc_client/emulation_server.py:147-181 | equal reply texts come from replies of the same kind, and from the same reply unless both are discovery hits |
| Emulator.ToJson | src/rtmc_client/emulation_server.py:120 | the decoded reply has status OKAY iff the reply is `Okay`, has a status iff it is a control reply, and is empty iff it is a discovery miss |
| Emulator.AuthCommand | src/rtmc_client/emulation_server.py:151-156 | the reply is OKAY or the authentication error, and OKAY iff the text from index 5 on equals the configured token |
| Emulator.DiscoverCommand | src/rtmc_client/emulation_server.py:160-181 | the reply is the identity object iff the service name matches the text from index 9 on, and the empty object whenever it does not; a hit carries the configured port and service |
| Emulator.CommandInvoke | src/rtmc_client/emulation_server.py:132-147 | the first word `auth` routes to the auth handler and `discover` to the discovery handler; every other first word, the empty one included, gets exactly the "not supported" error, and only those do |
| Emulator.ParseUnparse | src/rtmc_client/emulation_server.py:139-141 | writing a typed command as text and reading it back by keyword and argument yields the command |
| Emulator.DispatchFollowsParsedCommand | src/rtmc_client/emulation_server.py:132-170 | the fixed slices at 5 and 9 pick out exactly the text after the keyword, so string dispatch equals dispatch on the parsed command |
| Emulator.DispatchDependsOnlyOnFirstWord | src/rtmc_client/emulation_server.py:139-147 | two commands with the same first word get the same kind of reply |
| Emulator.UnsupportedExamples | src/rtmc_client/emulation_server.py:144-147 | the empty command, `xyz`, a command starting with a space, and `authx y` all get the "not supported" error |
| Emulator.AuthAcceptsExactlyToken | src/rtmc_client/emulation_server.py:151-156 | for every `t`, `auth t` authenticates iff `t` is the token, directly and through the dispatcher |
| Emulator.AuthIgnoresKeyword | src/rtmc_client/emulation_server.py:151-153 | any five characters followed by the token authenticate |
| Emulator.DiscoverMatchesArgument | src/rtmc_client/emulation_server.py:160-181 | `discover p` yields the identity iff the service matches `p`, else `{}` |
| Emulator.DiscoverDefaultsHit | src/rtmc_client/emulation_server.py:20-35 | with the constructor defaults, `discover rtmc*` yields the identity with service `rtmc-tcp-1.0-emulator` and port 65001 |
| Emulator.DiscoverDefaultsMiss | src/rtmc_client/emulation_server.py:170-181 | with the constructor defaults, `discover bad_query` is answered with exactly `{}` |
| Session.Step | src/rtmc_client/emulation_server.py:103-128 | the corrected loop body, where a receive timeout leaves the state unchanged instead of the break at lines 107-108 (`Session.StepAsWritten` is the code as written); closed is absorbing; an ending event closes without reply; a reply is sent iff a non-empty payload arrives on an open connection; before authentication the payload goes to the auth handler and the connection proceeds iff OKAY; once authenticated it stays so and replies come from the dispatcher |
| Session.RunFrom | src/rtmc_client/emulation_server.py:103-128 | the corrected loop: never more replies than events; nothing is read once closed; an authenticated connection never returns to awaiting authentication |
| Session.Serve | src/rtmc_client/emulation_server.py:91-128 | a freshly accepted connection under the corrected loop has the closed-form transcript: the auth error alone, or OKAY followed by the dispatcher's reply to each later payload, closed iff an ending event came |
| Session.AuthenticatedRun | src/rtmc_client/emulation_server.py:126-128 | once authenticated, each payload before the end is dispatched and answered in order, and the connection closes iff an ending event occurs |
| Session.AwaitingRun | src/rtmc_client/emulation_server.py:115-125 | from awaiting authentication the loop produces the closed-form transcript |
| Session.FirstPayloadIsAuthAttempt | src/rtmc_client/emulation_server.py:115-117 | the first payload, whatever its first word, is answered by the auth handler |
| Session.MalformedFirstMessageRejected | src/rtmc_client/emulation_server.py:115-125 | with a non-empty token, `xyz` as the first message gets one auth error and closes the connection |
| Session.FailedAuthClosesConnection | src/rtmc_client/emulation_server.py:119-125 | a failed first authentication gets exactly one error reply, and nothing after it is answered, the right token included |
| Session.WrongReauthKeepsSession | src/rtmc_client/emulation_server.py:126-128 | a wrong-token `auth` on an authenticated connection is answered with the error and the connection goes on as before |
| Session.ReauthTwice | src/rtmc_client/emulation_server.py:115-128 | the right token sent twice is answered OKAY twice and the connection stays authenticated |
| Session.UnsupportedKeepsSession | src/rtmc_client/emulation_server.py:126-128 | `xyz` on an authenticated connection gets the "not supported" error and does not close it |
| Session.EmptyPayloadEndsSilently | src/rtmc_client/emulation_server.py:110-112 | an empty payload ends the connection with no reply |
| Session.OneReplyPerMessage | src/rtmc_client/emulation_server.py:110-128 | after a failed authentication there is exactly one reply; otherwise every payload read before the end gets exactly one reply |
| Session.StepAsWritten | src/rtmc_client/emulation_server.py:104-108 | as written, a receive timeout closes the connection; every other event is handled as in `Step` |
| Session.RunAsWritten | src/rtmc_client/emulation_server.py:103-128 | the loop as written never replies more often than events arrive, reads nothing once closed, never returns to awaiting authentication once authenticated, and is always closed at the end when any timeout occurs |
| Session.ServeAsWritten | src/rtmc_client/emulation_server.py:91-128 | a freshly accepted connection as written, on events without a timeout, has the closed-form transcript |
| Session.AsWrittenUpToFirstTimeout | src/rtmc_client/emulation_server.py:103-128 | as written, the transcript is the corrected loop's replies to the events before the first timeout, and the connection is closed |
| Session.ServeAsWrittenMatchesExpected | src/rtmc_client/emulation_server.py:91-128 | as written, a connection with a timeout has the closed-form replies of the events before the first timeout, and ends closed |
| Session.AsWrittenAgreesWithoutTimeouts | src/rtmc_client/emulation_server.py:104-108 | without timeouts, the loop as written and the corrected loop produce the same transcript |
| Session.IdleClientDroppedAsWritten | src/rtmc_client/emulation_server.py:100-108 | as written, a client that authenticates, idles one receive period and then sends `discover *` gets only the OKAY; its connection is closed |
| Session.IdleClientServed | src/rtmc_client/emulation_server.py:100-108 | with timeouts skipped, the same client gets OKAY and then the discovery object |
| Session.TimeoutsAreTransparent | src/rtmc_client/emulation_server.py:100-108 | with timeouts skipped, removing every timeout from the events leaves the transcript unchanged |
| Client.NewDevice | src/rtmc_client/device.py:8-24 | a new device keeps the address and port it was given, has no socket, and leaves service, serial number and firmware unset |
| Client.AuthMessage | src/rtmc_client/device.py:49 | the message `connect` writes has first word `auth` and carries the token from index 5 on, which is where the emulator reads it |
| Client.Connect | src/rtmc_client/device.py:34-70 | when connected: OKAY and nothing sent or changed; otherwise it writes exactly `auth <token>` unless dialling failed, ends connected iff the reply's status is OKAY, returns the reply unmodified, turns a transport failure into "the device cannot be reached", and lets a decoding failure escape |
| Client.Disconnect | src/rtmc_client/device.py:74-95 | always ends disconnected with nothing sent and no other field changed; OKAY when already disconnected or when the close succeeds, "failed to close socket" when it fails |
| Client.Send | src/rtmc_client/device.py:99-109 | never changes the device; when disconnected, "socket closed" with nothing sent; when connected, writes the command verbatim and returns the decoded reply or lets the failure escape |
| Client.DisconnectIdempotent | src/rtmc_client/device.py:76-79 | a second disconnect returns OKAY and changes nothing |
| Client.ConnectAnswered | src/rtmc_client/device.py:53-59 | an answered connect returns the reply unmodified; the device keeps the new socket on OKAY and is unchanged otherwise |
| Client.Apply | src/rtmc_client/device.py:34-109 | one call changes at most the socket handle: a disconnect clears it, a send keeps the device, and a connect from disconnected ends holding a socket iff the reply said OKAY |
| Client.ApplyAll | src/rtmc_client/device.py:34-109 | over any sequence of calls, every field other than the socket handle is unchanged |
| Client.ConnectedIffAcceptedSinceDisconnect | src/rtmc_client/device.py:34-109 | starting disconnected, the device holds a socket iff some connect got an OKAY reply and no disconnect came after it |
| Interop.ConnectAgainstEmulator | src/rtmc_client/device.py:49-59 | for every token, connecting to the emulator ends connected iff the token is the emulator's; the emulator sends exactly one reply and keeps the connection iff authentication succeeded |
| Interop.ConnectSendDisconnect | src/rtmc_client/device.py:34-109 | connecting with the right token, sending `auth <token>` again and disconnecting returns OKAY three times and ends disconnected |

## Left out

- UDP discovery: the emulator has no UDP listener, so silence on a mismatched UDP query has no code to model.
- Server lifecycle: `start`, `stop`, the accept loop and its 100 ms polling (`emulation_server.py:46-96`) are threads and OS plumbing. The accept at line 93 has the same `except OSError: break` as `recv`, so an accept timeout ends the whole accept loop. That is outside this model.
- Socket I/O: `recv(1024)` framing is taken as one message per receive. Decoding the received bytes as text is not modelled, so payloads are text.
- Errors the server loop does not catch: a failing `sendall`, or a payload that is not valid UTF-8, raises out of the server thread. Neither is modelled.
- JSON text: encoding and decoding are primitives. `Emulator.ToJson` gives the decoded object only for discovery fields that need no escaping. `Render` interpolates the fields unescaped, so a field containing `"` produces text that is not valid JSON.
- Client replies that are not objects: in `connect`, a JSON reply that is not an object makes `.get` raise (`device.py:53`). This is not modelled. `send` returns whatever value the reply decodes to (`device.py:109`), but the model limits it to objects.
- Json.Value: decoded reply fields are limited to strings and integers. Booleans, null, floats, arrays and nested objects cannot appear in an `Answered` or `Delivered` reply.
- `Device.discover` is an empty stub.
- Case folding in `fnmatch.fnmatch` depends on the platform. The model is pinned to `fnmatchcase`.
- Python releases whose `fnmatch.translate` keeps empty ranges pass a reversed range such as `[c-a]` to `re`, which raises `re.error`. That behaviour is not modelled; a reversed range here matches nothing.
- Client.Connect: a failure of `sock.close()` inside `connect` is not modelled. This covers both the rejected-reply branch and the `except` branch. Closing a refused or rejected socket has no effect on the modelled state.
- Client.Connect, Client.Send: the reply is given already decoded. A reply that does not decode is an outcome of its own (`Garbled`, `Undecodable`), and the error escapes.

## Findings

| source | as written | input that shows it | evidently intended | confidence | as-written member | corrected member |
|---|---|---|---|---|---|---|
| src/rtmc_client/emulation_server.py:100-108 | `conn.settimeout(0.1)` makes an idle `recv` raise `socket.timeout`, a subclass of `OSError`. `except OSError: break` catches it and the connection is closed. | authenticate, stay idle for more than 100 ms, then send `discover *`: the query is never answered | the comment says the wait is bounded "before looping", so the loop should keep waiting and re-check the running flag | high, not executed | Session.IdleClientDroppedAsWritten | Session.TimeoutsAreTransparent |

=== FILE: client.dfy ===
/** The client-side session object `Device`: a state machine over its optional
    socket handle. Each network interaction is an outcome supplied by the
    environment; each operation yields the response, the messages written to
    the network, and the new device. */
module Client {

  import opened Wrappers
  import Json
  import Text

  /** An open TCP socket, identified but otherwise opaque. */
  datatype Handle = Handle(id: nat)

  datatype Device = Device(
    ipv4Addr: string,
    port: int,
    service: Option<string>,
    serialNumber: Option<string>,
    firmwareVersion: Option<string>,
    sock: Option<Handle>)

  /** A freshly constructed, disconnected device. */
  function NewDevice(ipv4Addr: string, port: int): (d: Device)
    ensures d.sock.None?
    ensures d.service.None? && d.serialNumber.None? && d.firmwareVersion.None?
    ensures d.ipv4Addr == ipv4Addr && d.port == port
  {
    Device(ipv4Addr, port, None, None, None, None)
  }

  /** What the network does during `connect`. */
  datatype ConnectOutcome =
    | Refused                                   // socket creation or dialling failed: nothing written
    | NoAnswer                                  // the message was attempted, then send or receive failed
    | Answered(sock: Handle, reply: Json.Obj)   // a reply arrived and decoded to an object
    | Garbled(sock: Handle)                     // the reply is empty or not JSON

  datatype CloseOutcome = CloseOk | CloseFailed

  /** What the network does during `send`. */
  datatype SendOutcome = Delivered(reply: Json.Obj) | Broken | Undecodable

  /** An exception that leaves the operation instead of a response. */
  datatype Fault = TransportError | DecodeError

  datatype Answer = Returned(response: Json.Obj) | Raised(fault: Fault)

  datatype Effect = Effect(answer: Answer, sent: seq<string>, device: Device)

  const CannotReachMessage := "the device cannot be reached"
  const CloseFailedMessage := "failed to close socket"
  const SocketClosedMessage := "socket closed"

  /** The message `connect` authenticates with: its first word is `auth`,
      and the emulator's slice from index 5 gives back the token. */
  function AuthMessage(apiToken: string): (m: string)
    ensures Text.FirstWord(m) == "auth"
    ensures Text.SliceFrom(m, 5) == apiToken
  {
    Text.FirstWordOfSpaced("auth", apiToken);
    assert "auth" + " " + apiToken == "auth " + apiToken;
    assert ("auth " + apiToken)[5..] == apiToken;
    "auth " + apiToken
  }

  /** `Device.connect`. Already connected: OKAY, nothing sent, nothing changed.
      Otherwise the authentication message is attempted and the device keeps the
      new socket iff the reply's status is OKAY; the reply is returned as it
      came. A transport failure yields "the device cannot be reached"; a reply
      that is not JSON raises. */
  function Connect(d: Device, apiToken: string, outcome: ConnectOutcome): (e: Effect)
    ensures d.sock.Some? ==> e == Effect(Returned(Json.Okay()), [], d)
    ensures d.sock.None? && !outcome.Refused? ==> e.sent == ["auth " + apiToken]
    ensures d.sock.None? && outcome.Refused? ==> e.sent == []
    ensures d.sock.None? ==>
              (e.device.sock.Some? <==> outcome.Answered? && Json.IsOkay(outcome.reply))
    ensures d.sock.None? && e.device.sock.Some? ==> e.device.sock.value == outcome.sock
    ensures d.sock.None? && outcome.Answered? ==> e.answer == Returned(outcome.reply)
    ensures d.sock.None? && (outcome.Refused? || outcome.NoAnswer?) ==>
              e.answer == Returned(Json.Error("the device cannot be reached"))
    ensures d.sock.None? && outcome.Garbled? ==> e.answer == Raised(DecodeError)
    ensures e.device.(sock := d.sock) == d
  {
    if d.sock.Some? then Effect(Returned(Json.Okay()), [], d)
    else
      match outcome
      case Refused => Effect(Returned(Json.Error(CannotReachMessage)), [], d.(sock := None))
      case NoAnswer => Effect(Returned(Json.Error(CannotReachMessage)), [AuthMessage(apiToken)], d.(sock := None))
      case Garbled(_) => Effect(Raised(DecodeError), [AuthMessage(apiToken)], d)
      case Answered(sock, reply) =>
        if Json.IsOkay(reply) then Effect(Returned(reply), [AuthMessage(apiToken)], d.(sock := Some(sock)))
        else Effect(Returned(reply), [AuthMessage(apiToken)], d)
  }

  /** `Device.disconnect`. The handle is cleared before the close is attempted,
      so the device always ends disconnected; a failing close is reported. */
  function Disconnect(d: Device, outcome: CloseOutcome): (e: Effect)
    ensures e.device == d.(sock := None)
    ensures e.sent == []
    ensures d.sock.None? ==> e.answer == Returned(Json.Okay())
    ensures d.sock.Some? ==>
              e.answer == Returned(if outcome.CloseOk? then Json.Okay() else Json.Error("failed to close socket"))
  {
    if d.sock.None? then Effect(Returned(Json.Okay()), [], d)
    else
      match outcome
      case CloseOk => Effect(Returned(Json.Okay()), [], d.(sock := None))
      case CloseFailed => Effect(Returned(Json.Error(CloseFailedMessage)), [], d.(sock := None))
  }

  /** `Device.send`. Disconnected: "socket closed" and no network traffic.
      Connected: the command is written verbatim and the decoded reply
      returned; failures are not caught. The handle is never changed. */
  function Send(d: Device, command: string, outcome: SendOutcome): (e: Effect)
    ensures e.device == d
    ensures d.sock.None? ==> e.answer == Returned(Json.Error("socket closed")) && e.sent == []
    ensures d.sock.Some? ==> e.sent == [command]
    ensures d.sock.Some? && outcome.Delivered? ==> e.answer == Returned(outcome.reply)
    ensures d.sock.Some? && outcome.Broken? ==> e.answer == Raised(TransportError)
    ensures d.sock.Some? && outcome.Undecodable? ==> e.answer == Raised(DecodeError)
  {
    if d.sock.None? then Effect(Returned(Json.Error(SocketClosedMessage)), [], d)
    else
      match outcome
      case Delivered(reply) => Effect(Returned(reply), [command], d)
      case Broken => Effect(Raised(TransportError), [command], d)
      case Undecodable => Effect(Raised(DecodeError), [command], d)
  }

  // ---------------------------------------------------------------------------
  // Properties

  /** Disconnecting twice: the second call returns OKAY and changes nothing,
      whatever the close outcomes. */
  lemma DisconnectIdempotent(d: Device, first: CloseOutcome, second: CloseOutcome)
    ensures var d1 := Disconnect(d, first).device;
            Disconnect(d1, second) == Effect(Returned(Json.Okay()), [], d1)
  {
  }

  /** A connect that reaches the device succeeds iff the reply says OKAY, and
      the reply is what the caller gets back either way. */
  lemma ConnectAnswered(d: Device, apiToken: string, sock: Handle, reply: Json.Obj)
    requires d.sock.None?
    ensures var e := Connect(d, apiToken, Answered(sock, reply));
            e.answer == Returned(reply)
            && (Json.IsOkay(reply) ==> e.device.sock == Some(sock))
            && (!Json.IsOkay(reply) ==> e.device == d)
  {
  }

  /** One call on the device with the environment's outcome. */
  datatype Op =
    | ConnectOp(apiToken: string, connectOutcome: ConnectOutcome)
    | DisconnectOp(closeOutcome: CloseOutcome)
    | SendOp(command: string, sendOutcome: SendOutcome)

  function Apply(d: Device, op: Op): (r: Device)
    ensures r.(sock := d.sock) == d
    ensures op.DisconnectOp? ==> r.sock.None?
    ensures op.SendOp? ==> r == d
    ensures op.ConnectOp? && d.sock.Some? ==> r == d
    ensures op.ConnectOp? && d.sock.None? ==> (r.sock.Some? <==> AcceptedConnect(op))
  {
    match op
    case ConnectOp(apiToken, o) => Connect(d, apiToken, o).device
    case DisconnectOp(o) => Disconnect(d, o).device
    case SendOp(command, o) => Send(d, command, o).device
  }

  /** The device after a sequence of calls. */
  function ApplyAll(d: Device, ops: seq<Op>): (r: Device)
    ensures r.(sock := d.sock) == d
    decreases |ops|
  {
    if ops == [] then d else Apply(ApplyAll(d, ops[..|ops| - 1]), ops[|ops| - 1])
  }

  /** A connect whose reply said OKAY. */
  predicate AcceptedConnect(op: Op)
  {
    op.ConnectOp? && op.connectOutcome.Answered? && Json.IsOkay(op.connectOutcome.reply)
  }

  predicate NoDisconnectAfter(ops: seq<Op>, i: nat)
  {
    forall j :: i < j < |ops| ==> !ops[j].DisconnectOp?
  }

  /** Starting disconnected, the device holds a socket exactly when some
      connect was accepted and no disconnect came after it: a handle is only
      ever set by a successful authentication, and only a disconnect clears it. */
  lemma {:induction false} ConnectedIffAcceptedSinceDisconnect(d: Device, ops: seq<Op>)
    requires d.sock.None?
    ensures ApplyAll(d, ops).sock.Some? <==>
            exists i :: 0 <= i < |ops| && AcceptedConnect(ops[i]) && NoDisconnectAfter(ops, i)
    decreases |ops|
  {
    if ops != [] {
      var pre := ops[..|ops| - 1];
      var last := ops[|ops| - 1];
      ConnectedIffAcceptedSinceDisconnect(d, pre);
      var before := ApplyAll(d, pre);
      forall i | 0 <= i < |pre|
        ensures ops[i] == pre[i]
        ensures NoDisconnectAfter(ops, i) <==> NoDisconnectAfter(pre, i) && !last.DisconnectOp?
      {
        if NoDisconnectAfter(pre, i) && !last.DisconnectOp? {
          forall j | i < j < |ops|
            ensures !ops[j].DisconnectOp?
          {
            if j < |pre| {
              assert ops[j] == pre[j];
            }
          }
        }
        if NoDisconnectAfter(ops, i) {
          forall j | i < j < |pre|
            ensures !pre[j].DisconnectOp?
          {
            assert pre[j] == ops[j];
          }
        }
      }
      if last.DisconnectOp? {
      } else if ApplyAll(d, ops).sock.Some? {
        if before.sock.Some? {
          var i :| 0 <= i < |pre| && AcceptedConnect(pre[i]) && NoDisconnectAfter(pre, i);
          assert AcceptedConnect(ops[i]) && NoDisconnectAfter(ops, i);
        } else {
          assert AcceptedConnect(ops[|ops| - 1]) && NoDisconnectAfter(ops, |ops| - 1);
        }
      } else {
        assert before.sock.None?;
        assert !AcceptedConnect(last);
      }
    }
  }
}

=== FILE: emulator.dfy ===
/** The command side of the RTMC card emulator: the dispatcher that picks a
    handler by the first word of a command, the `auth` and `discover`
    handlers, and the exact JSON text each reply is sent as. */
module Emulator {

  import Text
  import Json
  import Glob

  /** The emulator's configuration, fixed at construction. */
  datatype Config = Config(
    apiToken: string,
    service: string,
    port: int,
    device: string,
    serialNumber: string,
    firmwareVersion: string)

  /** The configuration the constructor builds when only the token is given:
      its service answers `rtmc*` and not `bad_query`, on port 65001. */
  function WithDefaults(apiToken: string): (cfg: Config)
    ensures cfg.apiToken == apiToken && cfg.port == 65001
    ensures Glob.Fnmatch(cfg.service, "rtmc*")
    ensures !Glob.Fnmatch(cfg.service, "bad_query")
  {
    DefaultServicePatterns();
    Config(apiToken, "rtmc-tcp-1.0-emulator", 65001, "bare-bones-emulator", "1234ABCD", "0.0.0")
  }

  lemma DefaultServicePatterns()
    ensures Glob.Fnmatch("rtmc-tcp-1.0-emulator", "rtmc*")
    ensures !Glob.Fnmatch("rtmc-tcp-1.0-emulator", "bad_query")
  {
    var service := "rtmc-tcp-1.0-emulator";
    assert Glob.NoMeta("rtmc");
    assert "rtmc*" == "rtmc" + "*";
    assert "rtmc" <= service;
    Glob.PrefixStarMatchesIffPrefix(service, "rtmc");
    assert service[0] != "bad_query"[0];
    Glob.PlainPatternMatchesIffEqual(service, "bad_query");
  }

  /** Every reply the handlers can produce. */
  datatype Reply =
    | Okay
    | AuthFailed
    | Unsupported
    | DiscoverHit(service: string, port: int, device: string, serialNumber: string, firmwareVersion: string)
    | DiscoverEmpty
  {
    predicate IsAuthReply()
    {
      Okay? || AuthFailed?
    }

    predicate IsDiscoverReply()
    {
      DiscoverHit? || DiscoverEmpty?
    }
  }

  const AuthFailedMessage := "authentication failed"
  const UnsupportedMessage := "command not supported by emulator"

  /** The discovery object describing this emulator. */
  function Identity(cfg: Config): Reply
  {
    DiscoverHit(cfg.service, cfg.port, cfg.device, cfg.serialNumber, cfg.firmwareVersion)
  }

  // ---------------------------------------------------------------------------
  // Wire text and decoded form of replies

  /** The JSON text sent for a reply. The discovery fields are interpolated
      without escaping, and the port is written with `str`. */
  function Render(r: Reply): (text: string)
    ensures |text| >= 2 && text[0] == '{' && text[|text| - 1] == '}'
    ensures text == "{}" <==> r.DiscoverEmpty?
  {
    match r
    case Okay => "{\"status\":\"OKAY\"}"
    case AuthFailed => ErrorText(AuthFailedMessage)
    case Unsupported => ErrorText(UnsupportedMessage)
    case DiscoverHit(service, port, device, serialNumber, firmwareVersion) =>
      "{\"service\":\"" + service
      + "\",\"port\":" + Text.IntToString(port)
      + ",\"device\":\"" + device
      + "\",\"serial_number\":\"" + serialNumber
      + "\",\"firmware_version\":\"" + firmwareVersion
      + "\"}"
    case DiscoverEmpty => "{}"
  }

  /** `{"status":"ERROR","error-message":"<message>"}` */
  function ErrorText(message: string): string
  {
    "{\"status\":\"ERROR\",\"error-message\":\"" + message + "\"}"
  }

  /** The object `json.loads` yields for the rendered text of a reply (for a
      discovery reply whose fields need no escaping). */
  function ToJson(r: Reply): (obj: Json.Obj)
    ensures Json.IsOkay(obj) <==> r.Okay?
    ensures "status" in obj <==> !r.IsDiscoverReply()
    ensures obj == map[] <==> r.DiscoverEmpty?
  {
    match r
    case Okay => Json.Okay()
    case AuthFailed => Json.Error(AuthFailedMessage)
    case Unsupported => Json.Error(UnsupportedMessage)
    case DiscoverHit(service, port, device, serialNumber, firmwareVersion) =>
      var obj := map[
        "service" := Json.JStr(service),
        "port" := Json.JInt(port),
        "device" := Json.JStr(device),
        "serial_number" := Json.JStr(serialNumber),
        "firmware_version" := Json.JStr(firmwareVersion)];
      assert "service" in obj;
      obj
    case DiscoverEmpty => map[]
  }

  /** The text of a reply tells which kind of reply it is, and for every reply
      other than a discovery hit it tells the reply itself. */
  lemma RenderDistinguishesReplies(a: Reply, b: Reply)
    requires Render(a) == Render(b)
    ensures a.DiscoverHit? <==> b.DiscoverHit?
    ensures !a.DiscoverHit? ==> a == b
  {
    var t := Render(a);
    if a.DiscoverHit? {
      assert t[3] == 'e';
    }
  }

  // ---------------------------------------------------------------------------
  // Handlers

  /** `_auth_command`: everything from index 5 on is the token. The first five
      characters are not looked at, so they need not spell `auth `. */
  function AuthCommand(cfg: Config, command: string): (r: Reply)
    ensures r.IsAuthReply()
    ensures r == Okay <==> Text.SliceFrom(command, 5) == cfg.apiToken
  {
    if Text.SliceFrom(command, 5) == cfg.apiToken then Okay else AuthFailed
  }

  /** `_discover_command`: everything from index 9 on is a glob pattern matched
      against the service name. Its `None` return for a first word other than
      `discover` cannot be reached through the dispatcher, hence the precondition. */
  function DiscoverCommand(cfg: Config, command: string): (r: Reply)
    requires Text.FirstWord(command) == "discover"
    ensures r.IsDiscoverReply()
    ensures r == Identity(cfg) <==> Glob.Fnmatch(cfg.service, Text.SliceFrom(command, 9))
    ensures !Glob.Fnmatch(cfg.service, Text.SliceFrom(command, 9)) ==> r == DiscoverEmpty
    ensures r.DiscoverHit? ==> r.port == cfg.port && r.service == cfg.service
  {
    if Glob.Fnmatch(cfg.service, Text.SliceFrom(command, 9)) then Identity(cfg) else DiscoverEmpty
  }

  /** `_command_invoke`: the handler is chosen by the text before the first space. */
  function CommandInvoke(cfg: Config, command: string): (r: Reply)
    ensures Text.FirstWord(command) == "auth" ==> r == AuthCommand(cfg, command)
    ensures Text.FirstWord(command) == "discover" ==> r == DiscoverCommand(cfg, command)
    ensures r.IsAuthReply() <==> Text.FirstWord(command) == "auth"
    ensures r.IsDiscoverReply() <==> Text.FirstWord(command) == "discover"
    ensures r == Unsupported <==> Text.FirstWord(command) != "auth" && Text.FirstWord(command) != "discover"
  {
    var firstWord := Text.FirstWord(command);
    if firstWord == "auth" then AuthCommand(cfg, command)
    else if firstWord == "discover" then DiscoverCommand(cfg, command)
    else Unsupported
  }

  // ---------------------------------------------------------------------------
  // The same protocol over typed commands

  /** A command as a keyword and its argument. */
  datatype Command = Auth(token: string) | Discover(pattern: string) | Unknown(text: string)

  /** Reads a command text as a keyword and the text after the first space. */
  function Parse(command: string): (c: Command)
    ensures c.Unknown? ==> c.text == command
  {
    var word := Text.FirstWord(command);
    var argument := if |word| < |command| then command[|word| + 1..] else [];
    if word == "auth" then Auth(argument)
    else if word == "discover" then Discover(argument)
    else Unknown(command)
  }

  /** The text a client writes for a command. */
  function Unparse(c: Command): string
  {
    match c
    case Auth(token) => "auth " + token
    case Discover(pattern) => "discover " + pattern
    case Unknown(text) => text
  }

  /** Commands the text form can carry: an unknown command must not begin with a keyword. */
  predicate Expressible(c: Command)
  {
    c.Unknown? ==> Text.FirstWord(c.text) != "auth" && Text.FirstWord(c.text) != "discover"
  }

  /** Writing a command and reading it back gives the command. */
  lemma ParseUnparse(c: Command)
    requires Expressible(c)
    ensures Parse(Unparse(c)) == c
  {
    match c
    case Auth(token) =>
      Text.FirstWordOfSpaced("auth", token);
      assert "auth" + " " + token == "auth " + token;
      assert ("auth " + token)[5..] == token;
    case Discover(pattern) =>
      Text.FirstWordOfSpaced("discover", pattern);
      assert "discover" + " " + pattern == "discover " + pattern;
      assert ("discover " + pattern)[9..] == pattern;
    case Unknown(text) =>
  }

  /** The reply the protocol calls for, stated on typed commands. */
  function Respond(cfg: Config, c: Command): Reply
  {
    match c
    case Auth(token) => if token == cfg.apiToken then Okay else AuthFailed
    case Discover(pattern) => if Glob.Fnmatch(cfg.service, pattern) then Identity(cfg) else DiscoverEmpty
    case Unknown(_) => Unsupported
  }

  /** The fixed offsets 5 and 9 the handlers slice at pick out exactly the
      argument after the keyword, so string dispatch agrees with typed dispatch. */
  lemma DispatchFollowsParsedCommand(cfg: Config, command: string)
    ensures CommandInvoke(cfg, command) == Respond(cfg, Parse(command))
  {
    var word := Text.FirstWord(command);
    if word == "auth" {
      if |word| < |command| {
        assert Text.SliceFrom(command, 5) == command[|word| + 1..];
      } else {
        assert command == word;
      }
    } else if word == "discover" {
      if |word| < |command| {
        assert Text.SliceFrom(command, 9) == command[|word| + 1..];
      } else {
        assert command == word;
      }
    }
  }

  // ---------------------------------------------------------------------------
  // Properties of the dispatcher

  /** Which handler answers, and so which kind of reply comes back, depends
      only on the text before the first space. */
  lemma DispatchDependsOnlyOnFirstWord(cfg: Config, a: string, b: string)
    requires Text.FirstWord(a) == Text.FirstWord(b)
    ensures CommandInvoke(cfg, a).IsAuthReply() <==> CommandInvoke(cfg, b).IsAuthReply()
    ensures CommandInvoke(cfg, a).IsDiscoverReply() <==> CommandInvoke(cfg, b).IsDiscoverReply()
    ensures CommandInvoke(cfg, a) == Unsupported <==> CommandInvoke(cfg, b) == Unsupported
  {
  }

  /** The empty command, a command starting with a space, and any other word
      all get the "not supported" error. */
  lemma UnsupportedExamples(cfg: Config)
    ensures CommandInvoke(cfg, "") == Unsupported
    ensures CommandInvoke(cfg, "xyz") == Unsupported
    ensures CommandInvoke(cfg, " auth x") == Unsupported
    ensures CommandInvoke(cfg, "authx y") == Unsupported
  {
    assert Text.FirstWord("xyz") == "xyz";
    assert Text.FirstWord(" auth x") == "";
    Text.FirstWordOfSpaced("authx", "y");
    assert "authx" + " " + "y" == "authx y";
  }

  /** The client's `auth <t>` authenticates iff `t` is the configured token,
      whether it reaches the handler directly or through the dispatcher. */
  lemma AuthAcceptsExactlyToken(cfg: Config, t: string)
    ensures AuthCommand(cfg, "auth " + t) == Okay <==> t == cfg.apiToken
    ensures CommandInvoke(cfg, "auth " + t) == AuthCommand(cfg, "auth " + t)
  {
    assert ("auth " + t)[5..] == t;
    Text.FirstWordOfSpaced("auth", t);
    assert "auth" + " " + t == "auth " + t;
  }

  /** The handler authenticates any five characters followed by the token,
      whatever those characters are. */
  lemma AuthIgnoresKeyword(cfg: Config, head: string)
    requires |head| == 5
    ensures AuthCommand(cfg, head + cfg.apiToken) == Okay
  {
    assert (head + cfg.apiToken)[5..] == cfg.apiToken;
  }

  /** `discover <p>` reports the identity iff the service name matches `p`,
      and otherwise the empty object. */
  lemma DiscoverMatchesArgument(cfg: Config, p: string)
    ensures CommandInvoke(cfg, "discover " + p) == (if Glob.Fnmatch(cfg.service, p) then Identity(cfg) else DiscoverEmpty)
  {
    assert ("discover " + p)[9..] == p;
    Text.FirstWordOfSpaced("discover", p);
    assert "discover" + " " + p == "discover " + p;
  }

  /** With the default configuration, `rtmc*` finds the emulator on port 65001. */
  lemma DiscoverDefaultsHit(token: string)
    ensures CommandInvoke(WithDefaults(token), "discover rtmc*")
         == DiscoverHit("rtmc-tcp-1.0-emulator", 65001, "bare-bones-emulator", "1234ABCD", "0.0.0")
  {
    var cfg := WithDefaults(token);
    DiscoverTexts();
    assert CommandInvoke(cfg, "discover " + "rtmc*") == Identity(cfg) by {
      DiscoverMatchesArgument(cfg, "rtmc*");
    }
    DefaultIdentity(token);
  }

  lemma DiscoverTexts()
    ensures "discover " + "rtmc*" == "discover rtmc*"
    ensures "discover " + "bad_query" == "discover bad_query"
  {
  }

  lemma DefaultIdentity(token: string)
    ensures Identity(WithDefaults(token))
         == DiscoverHit("rtmc-tcp-1.0-emulator", 65001, "bare-bones-emulator", "1234ABCD", "0.0.0")
  {
  }

  /** With the default configuration, `bad_query` gets exactly `{}`. */
  lemma DiscoverDefaultsMiss(token: string)
    ensures Render(CommandInvoke(WithDefaults(token), "discover bad_query")) == "{}"
  {
    var cfg := WithDefaults(token);
    DiscoverTexts();
    assert CommandInvoke(cfg, "discover " + "bad_query") == DiscoverEmpty by {
      DiscoverMatchesArgument(cfg, "bad_query");
    }
  }
}

=== FILE: glob.dfy ===
/** Shell-style pattern matching as Python's `fnmatch.fnmatchcase` performs it:
    the pattern is first translated into a sequence of tokens (the role of
    `fnmatch.translate`), and the whole name must then match the tokens.
    Matching is case-sensitive; the platform-dependent case folding of
    `fnmatch.fnmatch` is not modelled. */
module Glob {

  import opened Wrappers

  /** One element of a bracket class: a single character or a range `lo-hi`. */
  datatype ClassItem = Single(c: char) | Span(lo: char, hi: char)

  datatype Token =
    | Literal(c: char)                                  // an ordinary character
    | AnyChar                                           // `?`
    | AnyRun                                            // `*`
    | CharClass(negated: bool, items: seq<ClassItem>)   // `[...]` or `[!...]`

  /** A range whose low end exceeds its high end contains nothing, as the
      translation deletes such ranges before building the regular expression. */
  predicate ItemContains(item: ClassItem, c: char)
  {
    match item
    case Single(x) => c == x
    case Span(lo, hi) => lo <= c <= hi
  }

  predicate SomeItemContains(items: seq<ClassItem>, c: char)
    decreases |items|
  {
    items != [] && (ItemContains(items[0], c) || SomeItemContains(items[1..], c))
  }

  /** Whether a token that stands for one character accepts `c`. */
  predicate Accepts(t: Token, c: char)
  {
    match t
    case Literal(x) => c == x
    case AnyChar => true
    case AnyRun => false
    case CharClass(negated, items) => SomeItemContains(items, c) != negated
  }

  // ---------------------------------------------------------------------------
  // Pattern translation

  /** First index at or after `from` holding `c`, or `None`. */
  function IndexFrom(s: string, c: char, from: nat): (r: Option<nat>)
    ensures r.Some? ==> from <= r.value < |s| && s[r.value] == c
    ensures r.Some? ==> forall k :: from <= k < r.value ==> s[k] != c
    ensures r.None? ==> forall k :: from <= k < |s| ==> s[k] != c
    decreases |s| - from
  {
    if from >= |s| then None
    else if s[from] == c then Some(from)
    else IndexFrom(s, c, from + 1)
  }

  /** Index of the `]` closing the class opened by `pat[0] == '['`, or `None`
      when the class is unclosed. A `]` directly after `[` or `[!` belongs to
      the class instead of closing it. */
  function ClassClose(pat: string): (r: Option<nat>)
    requires pat != [] && pat[0] == '['
    ensures r.Some? ==> 2 <= r.value < |pat| && pat[r.value] == ']'
    ensures r.Some? ==> ClassStart(pat) <= r.value
    ensures r.Some? ==> forall k :: ClassStart(pat) <= k < r.value ==> pat[k] != ']'
    ensures r.None? ==> forall k :: ClassStart(pat) <= k < |pat| ==> pat[k] != ']'
    ensures r.None? ==> forall k :: 3 <= k < |pat| ==> pat[k] != ']'
  {
    IndexFrom(pat, ']', ClassStart(pat))
  }

  /** Where the search for the closing `]` begins: past the `[`, an optional
      `!`, and a `]` that is the first member. */
  function ClassStart(pat: string): (start: nat)
    requires pat != [] && pat[0] == '['
    ensures 1 <= start <= 3
    ensures |pat| > 1 && pat[1] == '!' ==> start == (if |pat| > 2 && pat[2] == ']' then 3 else 2)
    ensures !(|pat| > 1 && pat[1] == '!') ==> start == (if |pat| > 1 && pat[1] == ']' then 2 else 1)
  {
    var afterBang := if 1 < |pat| && pat[1] == '!' then 2 else 1;
    if afterBang < |pat| && pat[afterBang] == ']' then afterBang + 1 else afterBang
  }

  /** The items of a class body, read left to right: `x-y` is a range when the
      hyphen has a character on both sides; a hyphen at either end is literal. */
  function ParseItems(body: string): (items: seq<ClassItem>)
    ensures |items| <= |body|
    ensures '-' !in body ==> |items| == |body| && forall i :: 0 <= i < |body| ==> items[i] == Single(body[i])
    decreases |body|
  {
    if body == [] then []
    else if |body| >= 3 && body[1] == '-' then [Span(body[0], body[2])] + ParseItems(body[3..])
    else [Single(body[0])] + ParseItems(body[1..])
  }

  /** A range whose ends are reversed; it contains nothing. */
  predicate EmptySpan(item: ClassItem)
  {
    item.Span? && item.lo > item.hi
  }

  /** The items left once the empty ranges at the front are deleted. */
  function LiveItems(items: seq<ClassItem>): (live: seq<ClassItem>)
    ensures |live| <= |items| && live == items[|items| - |live|..]
    ensures forall i :: 0 <= i < |items| - |live| ==> EmptySpan(items[i])
    ensures live != [] ==> !EmptySpan(live[0])
    decreases |items|
  {
    if items != [] && EmptySpan(items[0]) then LiveItems(items[1..]) else items
  }

  /** The class token for the text between `[` and `]`. Negation is decided
      after empty ranges are deleted: a leading `!` negates, and so does a `!`
      that becomes the first character once the empty ranges in front of it
      are gone. Such a `!` may have been the low end of a range; the hyphen
      and the high end are then members of their own. */
  function ClassToken(body: string): (t: Token)
    ensures t.CharClass?
    ensures body != [] && body[0] == '!' ==> t.negated
    ensures !t.negated ==> t.items == ParseItems(body)
    ensures t.negated ==> body != [] && (body[0] == '!' || EmptySpan(ParseItems(body)[0]))
  {
    if body != [] && body[0] == '!' then CharClass(true, ParseItems(body[1..]))
    else
      var items := ParseItems(body);
      var live := LiveItems(items);
      if live != [] && live[0] == Single('!') then CharClass(true, live[1..])
      else if live != [] && live[0].Span? && live[0].lo == '!' then
        CharClass(true, [Single('-'), Single(live[0].hi)] + live[1..])
      else CharClass(false, items)
  }

  /** Translation of a pattern into tokens. An unclosed `[` is an ordinary
      character. Consecutive `*` are kept as separate tokens, which matches
      the same names as the single `*` the library emits (`DoubledRunIsOneRun`). */
  function Compile(pat: string): (toks: seq<Token>)
    ensures |toks| <= |pat|
    ensures '*' !in pat ==> AnyRun !in toks
    ensures '[' !in pat ==> |toks| == |pat|
    decreases |pat|
  {
    if pat == [] then []
    else if pat[0] == '*' then [AnyRun] + Compile(pat[1..])
    else if pat[0] == '?' then [AnyChar] + Compile(pat[1..])
    else if pat[0] == '[' then
      match ClassClose(pat)
      case None => [Literal('[')] + Compile(pat[1..])
      case Some(j) => [ClassToken(pat[1..j])] + Compile(pat[j + 1..])
    else [Literal(pat[0])] + Compile(pat[1..])
  }

  // ---------------------------------------------------------------------------
  // Matching

  /** Backtracking matcher: does the whole of `name` match `toks`? */
  function Matches(name: string, toks: seq<Token>): (r: bool)
    ensures r && AnyRun !in toks ==> |name| == |toks|
    decreases |toks|, |name|
  {
    if toks == [] then name == []
    else if toks[0] == AnyRun then
      Matches(name, toks[1..]) || (name != [] && Matches(name[1..], toks))
    else
      name != [] && Accepts(toks[0], name[0]) && Matches(name[1..], toks[1..])
  }

  /** `fnmatch.fnmatchcase(name, pat)`. */
  function Fnmatch(name: string, pat: string): (r: bool)
    ensures r <==> Denotes(name, Compile(pat))
  {
    MatchesIffDenotes(name, Compile(pat));
    Matches(name, Compile(pat))
  }

  /** Reference meaning of a token sequence: `*` stands for some suffix split,
      every other token for exactly one accepted character. */
  ghost predicate Denotes(name: string, toks: seq<Token>)
    decreases |toks|
  {
    if toks == [] then name == []
    else if toks[0] == AnyRun then
      exists k :: 0 <= k <= |name| && Denotes(name[k..], toks[1..])
    else
      |name| >= 1 && Accepts(toks[0], name[0]) && Denotes(name[1..], toks[1..])
  }

  /** The backtracking matcher decides exactly the reference meaning. */
  lemma {:induction false} MatchesIffDenotes(name: string, toks: seq<Token>)
    ensures Matches(name, toks) <==> Denotes(name, toks)
    decreases |toks|, |name|
  {
    if toks == [] {
    } else if toks[0] == AnyRun {
      var rest := toks[1..];
      if Matches(name, toks) {
        if Matches(name, rest) {
          MatchesIffDenotes(name, rest);
          assert name[0..] == name;
        } else {
          MatchesIffDenotes(name[1..], toks);
          var k :| 0 <= k <= |name[1..]| && Denotes(name[1..][k..], rest);
          assert name[1..][k..] == name[k + 1..];
        }
      }
      if Denotes(name, toks) {
        var k :| 0 <= k <= |name| && Denotes(name[k..], rest);
        if k == 0 {
          assert name[0..] == name;
          MatchesIffDenotes(name, rest);
        } else {
          assert name[1..][k - 1..] == name[k..];
          assert Denotes(name[1..], toks);
          MatchesIffDenotes(name[1..], toks);
        }
      }
    } else if name != [] {
      MatchesIffDenotes(name[1..], toks[1..]);
    }
  }

  // ---------------------------------------------------------------------------
  // Facts about patterns

  /** What a pattern matches, read off its first character: `*` leaves any
      suffix to the rest, `?` takes one character, a closed class takes one
      character it accepts, an unclosed `[` and every other character take
      themselves. */
  lemma FnmatchByFirstCharacter(name: string, pat: string)
    ensures pat == [] ==> (Fnmatch(name, pat) <==> name == [])
    ensures pat != [] && pat[0] == '*' ==>
              (Fnmatch(name, pat) <==> exists k :: 0 <= k <= |name| && Fnmatch(name[k..], pat[1..]))
    ensures pat != [] && pat[0] == '?' ==>
              (Fnmatch(name, pat) <==> name != [] && Fnmatch(name[1..], pat[1..]))
    ensures pat != [] && pat[0] == '[' && ClassClose(pat).Some? ==>
              var j := ClassClose(pat).value;
              (Fnmatch(name, pat) <==>
                 name != [] && Accepts(ClassToken(pat[1..j]), name[0]) && Fnmatch(name[1..], pat[j + 1..]))
    ensures pat != [] && pat[0] == '[' && ClassClose(pat).None? ==>
              (Fnmatch(name, pat) <==> name != [] && name[0] == '[' && Fnmatch(name[1..], pat[1..]))
    ensures pat != [] && pat[0] !in "*?[" ==>
              (Fnmatch(name, pat) <==> name != [] && name[0] == pat[0] && Fnmatch(name[1..], pat[1..]))
  {
    if pat != [] && pat[0] == '*' {
      assert pat == "*" + pat[1..];
      StarPrefix(name, pat[1..]);
    }
  }

  /** A class body without a hyphen holds exactly its own characters. */
  lemma {:induction false} HyphenFreeItems(body: string, c: char)
    requires '-' !in body
    ensures SomeItemContains(ParseItems(body), c) <==> c in body
    decreases |body|
  {
    if body != [] {
      assert '-' !in body[1..];
      HyphenFreeItems(body[1..], c);
      assert ParseItems(body) == [Single(body[0])] + ParseItems(body[1..]);
      assert c in body <==> c == body[0] || c in body[1..];
    }
  }

  /** A hyphen-free class accepts exactly its characters, or with a leading
      `!` exactly the characters it does not list. */
  lemma HyphenFreeClass(body: string, c: char)
    requires '-' !in body
    ensures body != [] && body[0] == '!' ==> (Accepts(ClassToken(body), c) <==> c !in body[1..])
    ensures !(body != [] && body[0] == '!') ==> (Accepts(ClassToken(body), c) <==> c in body)
  {
    if body != [] && body[0] == '!' {
      assert '-' !in body[1..];
      HyphenFreeItems(body[1..], c);
    } else {
      HyphenFreeItems(body, c);
    }
  }

  /** A class of one range `lo-hi` accepts exactly the characters from `lo`
      to `hi`; a reversed range accepts nothing. A `!` as `lo` would negate
      the class, and a `]` as `hi` would close it early. */
  lemma SingleRangeClass(lo: char, hi: char, c: char)
    requires lo != '!' && hi != ']'
    ensures Fnmatch([c], ['[', lo, '-', hi, ']']) <==> lo <= c <= hi
  {
    var pat := ['[', lo, '-', hi, ']'];
    RangeClassCloses(lo, hi);
    assert pat[1..4] == [lo, '-', hi];
    SingleClassPattern(c, pat);
    RangeClassAccepts(lo, hi, c);
  }

  lemma RangeClassAccepts(lo: char, hi: char, c: char)
    requires lo != '!'
    ensures Accepts(ClassToken([lo, '-', hi]), c) <==> lo <= c <= hi
  {
    RangeBody(lo, hi);
    OneItemContains(Span(lo, hi), c);
  }

  lemma OneItemContains(item: ClassItem, c: char)
    ensures SomeItemContains([item], c) <==> ItemContains(item, c)
  {
    assert [item][1..] == [];
  }

  lemma RangeClassCloses(lo: char, hi: char)
    requires lo != '!' && hi != ']'
    ensures ClassClose(['[', lo, '-', hi, ']']) == Some(4)
  {
    var pat := ['[', lo, '-', hi, ']'];
    assert ClassStart(pat) == (if lo == ']' then 2 else 1);
    assert pat[4] == ']';
    assert forall k :: ClassStart(pat) <= k < 4 ==> pat[k] != ']';
  }

  /** The body `lo-hi` is one range, and the class is not negated. */
  lemma RangeBody(lo: char, hi: char)
    requires lo != '!'
    ensures ParseItems([lo, '-', hi]) == [Span(lo, hi)]
    ensures ClassToken([lo, '-', hi]) == CharClass(false, [Span(lo, hi)])
  {
    assert [lo, '-', hi][3..] == [];
    assert ParseItems([lo, '-', hi]) == [Span(lo, hi)] + ParseItems([]);
    if lo > hi {
      assert LiveItems([Span(lo, hi)]) == LiveItems([]);
    } else {
      assert LiveItems([Span(lo, hi)]) == [Span(lo, hi)];
    }
  }

  /** A hyphen at either end of a hyphen-free class body is a literal member:
      the items hold exactly the body's characters and `-`. */
  lemma {:induction false} TrailingHyphenItems(s: string, c: char)
    requires '-' !in s
    ensures SomeItemContains(ParseItems(s + "-"), c) <==> c in s || c == '-'
    decreases |s|
  {
    var body := s + "-";
    if s == [] {
      assert body == "-";
      assert ParseItems(body) == [Single('-')] + ParseItems([]);
    } else {
      assert body[0] == s[0] && body[1..] == s[1..] + "-";
      assert |body| >= 3 ==> body[1] == s[1];
      assert ParseItems(body) == [Single(s[0])] + ParseItems(s[1..] + "-");
      assert '-' !in s[1..];
      TrailingHyphenItems(s[1..], c);
      assert c in s <==> c == s[0] || c in s[1..];
    }
  }

  lemma LeadingHyphenItems(s: string, c: char)
    requires '-' !in s
    ensures SomeItemContains(ParseItems("-" + s), c) <==> c in s || c == '-'
  {
    var body := "-" + s;
    assert body[1..] == s;
    assert |body| >= 3 ==> body[1] == s[0];
    assert ParseItems(body) == [Single('-')] + ParseItems(s);
    HyphenFreeItems(s, c);
  }

  /** A pattern with neither `*` nor `[` matches only names of its own length. */
  lemma StarFreeLength(name: string, pat: string)
    requires '*' !in pat && '[' !in pat
    ensures Fnmatch(name, pat) ==> |name| == |pat|
  {
  }

  /** `*` matches every name, the empty one included. */
  lemma {:induction false} RunMatchesAll(name: string)
    ensures Matches(name, [AnyRun])
    decreases |name|
  {
    if name != [] {
      RunMatchesAll(name[1..]);
    }
  }

  lemma StarMatchesEveryName(name: string)
    ensures Fnmatch(name, "*")
  {
    assert Compile("*") == [AnyRun];
    RunMatchesAll(name);
  }

  /** `*p` matches `name` iff some suffix of `name` matches `p`. */
  lemma StarPrefix(name: string, p: string)
    ensures Fnmatch(name, "*" + p) <==> exists k :: 0 <= k <= |name| && Fnmatch(name[k..], p)
  {
    assert ("*" + p)[1..] == p;
    var toks := Compile("*" + p);
    assert toks == [AnyRun] + Compile(p);
    assert toks[1..] == Compile(p);
    MatchesIffDenotes(name, toks);
    forall k | 0 <= k <= |name|
      ensures Fnmatch(name[k..], p) <==> Denotes(name[k..], Compile(p))
    {
      MatchesIffDenotes(name[k..], Compile(p));
    }
  }

  /** `?p` matches `name` iff `name` has a first character and the rest matches `p`. */
  lemma QuestionConsumesOne(name: string, p: string)
    ensures Fnmatch(name, "?" + p) <==> |name| >= 1 && Fnmatch(name[1..], p)
  {
    assert ("?" + p)[1..] == p;
    assert Compile("?" + p) == [AnyChar] + Compile(p);
  }

  /** Two `*` in a row match the same names as one. */
  lemma DoubledRunIsOneRun(name: string, toks: seq<Token>)
    ensures Matches(name, [AnyRun, AnyRun] + toks) <==> Matches(name, [AnyRun] + toks)
  {
    var two := [AnyRun, AnyRun] + toks;
    var one := [AnyRun] + toks;
    assert two[1..] == one && one[1..] == toks;
    MatchesIffDenotes(name, two);
    MatchesIffDenotes(name, one);
    if Denotes(name, two) {
      var k :| 0 <= k <= |name| && Denotes(name[k..], one);
      var m :| 0 <= m <= |name[k..]| && Denotes(name[k..][m..], toks);
      assert name[k..][m..] == name[k + m..];
    }
    if Denotes(name, one) {
      var k :| 0 <= k <= |name| && Denotes(name[k..], toks);
      assert name[0..] == name;
      assert name[0..][k..] == name[k..];
      assert Denotes(name[0..], one);
    }
  }

  /** A pattern is plain when it has no `*` or `?` and no `]` anywhere after
      a `[`; every `[` in it is then unclosed. */
  predicate Plain(pat: string)
  {
    forall i :: 0 <= i < |pat| ==> pat[i] != '*' && pat[i] != '?' && (pat[i] == '[' ==> ']' !in pat[i + 1..])
  }

  function Literals(s: string): (toks: seq<Token>)
    ensures |toks| == |s|
  {
    if s == [] then [] else [Literal(s[0])] + Literals(s[1..])
  }

  lemma {:induction false} CompilePlain(pat: string)
    requires Plain(pat)
    ensures Compile(pat) == Literals(pat)
    decreases |pat|
  {
    if pat != [] {
      assert Plain(pat[1..]) by {
        forall i | 0 <= i < |pat[1..]|
          ensures pat[1..][i] != '*' && pat[1..][i] != '?'
          ensures pat[1..][i] == '[' ==> ']' !in pat[1..][i + 1..]
        {
          assert pat[1..][i] == pat[i + 1];
          assert pat[1..][i + 1..] == pat[i + 2..];
        }
      }
      if pat[0] == '[' {
        assert ']' !in pat[1..];
        forall k | 1 <= k < |pat|
          ensures pat[k] != ']'
        {
          assert pat[k] == pat[1..][k - 1];
        }
        assert ClassClose(pat).None?;
      }
      CompilePlain(pat[1..]);
    }
  }

  lemma {:induction false} LiteralsMatchOnlyThemselves(name: string, s: string)
    ensures Matches(name, Literals(s)) <==> name == s
    decreases |s|
  {
    if s != [] {
      var toks := Literals(s);
      assert toks[0] == Literal(s[0]) && toks[1..] == Literals(s[1..]);
      if name != [] {
        LiteralsMatchOnlyThemselves(name[1..], s[1..]);
      }
      if name != [] && name[0] == s[0] && name[1..] == s[1..] {
        assert name == [name[0]] + name[1..];
        assert s == [s[0]] + s[1..];
      }
    }
  }

  /** A pattern with no metacharacters (an unclosed `[` being an ordinary
      character) matches exactly the name equal to it. */
  lemma PlainPatternMatchesIffEqual(name: string, pat: string)
    requires Plain(pat)
    ensures Fnmatch(name, pat) <==> name == pat
  {
    CompilePlain(pat);
    LiteralsMatchOnlyThemselves(name, pat);
  }

  /** No `*`, `?` or `[` at all. */
  predicate NoMeta(s: string)
  {
    forall i :: 0 <= i < |s| ==> s[i] != '*' && s[i] != '?' && s[i] != '['
  }

  lemma CompileLiteralHead(c: char, s: string)
    requires c != '*' && c != '?' && c != '['
    ensures Compile([c] + s) == [Literal(c)] + Compile(s)
  {
    assert ([c] + s)[1..] == s;
  }

  lemma {:induction false} CompileLiteralPrefix(prefix: string, rest: string)
    requires NoMeta(prefix)
    ensures Compile(prefix + rest) == Literals(prefix) + Compile(rest)
    decreases |prefix|
  {
    if prefix != [] {
      var pat := prefix + rest;
      assert pat == [prefix[0]] + (prefix[1..] + rest);
      assert NoMeta(prefix[1..]) by {
        forall i | 0 <= i < |prefix[1..]|
          ensures prefix[1..][i] != '*' && prefix[1..][i] != '?' && prefix[1..][i] != '['
        {
          assert prefix[1..][i] == prefix[i + 1];
        }
      }
      CompileLiteralPrefix(prefix[1..], rest);
      CompileLiteralHead(prefix[0], prefix[1..] + rest);
      assert Literals(prefix) == [Literal(prefix[0])] + Literals(prefix[1..]);
    } else {
      assert prefix + rest == rest;
    }
  }

  lemma {:induction false} LiteralsThenRun(name: string, p: string)
    ensures Matches(name, Literals(p) + [AnyRun]) <==> p <= name
    decreases |p|
  {
    var toks := Literals(p) + [AnyRun];
    if p == [] {
      assert toks == [AnyRun];
      RunMatchesAll(name);
    } else {
      assert toks[0] == Literal(p[0]);
      assert toks[1..] == Literals(p[1..]) + [AnyRun];
      if name != [] {
        LiteralsThenRun(name[1..], p[1..]);
        if p <= name {
          assert p[1..] <= name[1..];
        }
        if name[0] == p[0] && p[1..] <= name[1..] {
          assert p == [p[0]] + p[1..];
          assert name == [name[0]] + name[1..];
        }
      }
    }
  }

  /** `prefix*`, for a prefix without metacharacters, matches exactly the
      names that start with the prefix. */
  lemma PrefixStarMatchesIffPrefix(name: string, prefix: string)
    requires NoMeta(prefix)
    ensures Fnmatch(name, prefix + "*") <==> prefix <= name
  {
    CompileLiteralPrefix(prefix, "*");
    assert Compile("*") == [AnyRun];
    LiteralsThenRun(name, prefix);
  }

  /** A pattern that is one closed class matches a one-character name iff
      the class accepts that character. */
  lemma SingleClassPattern(c: char, pat: string)
    requires |pat| >= 2 && pat[0] == '[' && ClassClose(pat) == Some(|pat| - 1)
    ensures Fnmatch([c], pat) <==> Accepts(ClassToken(pat[1..|pat| - 1]), c)
  {
    FnmatchByFirstCharacter([c], pat);
    assert [c][1..] == [] && [c][0] == c && pat[|pat|..] == [];
    assert Fnmatch([], []) by {
      assert Compile([]) == [];
    }
  }

  /** The search for the closing `]` stops at the first one past the start. */
  lemma ClassCloseAt(pat: string, j: nat)
    requires pat != [] && pat[0] == '[' && ClassStart(pat) <= j < |pat| && pat[j] == ']'
    requires forall k :: ClassStart(pat) <= k < j ==> pat[k] != ']'
    ensures ClassClose(pat) == Some(j)
  {
  }

  /** A class body without `!` is never negated. */
  lemma ClassWithoutBang(body: string)
    requires body == [] || (body[0] != '!' && !EmptySpan(ParseItems(body)[0]))
    ensures ClassToken(body) == CharClass(false, ParseItems(body))
  {
  }

  /** A range class accepts exactly the characters between its ends. */
  lemma RangeClassExample()
    ensures Fnmatch("b", "[a-c]") && !Fnmatch("d", "[a-c]")
  {
    SingleRangeClass('a', 'c', 'b');
    SingleRangeClass('a', 'c', 'd');
  }

  /** `!` after `[` negates the class. */
  lemma NegatedClassExample()
    ensures Fnmatch("d", "[!a-c]") && !Fnmatch("b", "[!a-c]")
  {
    assert ClassClose("[!a-c]") == Some(5);
    assert "[!a-c]"[1..5] == "!a-c" && "[!a-c]"[6..] == [];
    assert ParseItems("a-c") == [Span('a', 'c')];
    assert Compile("[!a-c]") == [CharClass(true, [Span('a', 'c')])];
  }

  /** A `]` right after `[` is a member, not the end of the class. */
  lemma BracketFirstExample()
    ensures Fnmatch("]", "[]]") && !Fnmatch("a", "[]]")
  {
    assert ClassStart("[]]") == 2;
    assert ClassClose("[]]") == Some(2);
    assert "[]]"[1..2] == "]";
    ClassWithoutBang("]");
    assert ParseItems("]") == [Single(']')];
    SingleClassPattern(']', "[]]");
    SingleClassPattern('a', "[]]");
  }

  /** A trailing hyphen is literal; a reversed range contains nothing. */
  lemma HyphenExamples()
    ensures Fnmatch("-", "[a-]") && !Fnmatch("b", "[c-a]")
  {
    assert ClassClose("[a-]") == Some(3);
    assert "[a-]"[1..3] == "a-" == "a" + "-";
    ClassWithoutBang("a-");
    TrailingHyphenItems("a", '-');
    SingleClassPattern('-', "[a-]");
    SingleRangeClass('c', 'a', 'b');
  }

  /** An empty range in front of `!` is deleted before negation is decided,
      so the `!` negates the rest of the class. */
  lemma EmptyRangeBeforeBang(lo: char, hi: char, rest: string)
    requires hi < lo && lo != '!'
    requires rest == [] || rest[0] != '-'
    ensures ClassToken([lo, '-', hi, '!'] + rest) == ClassToken("!" + rest)
    ensures ClassToken("!" + rest) == CharClass(true, ParseItems(rest))
  {
    var bang := "!" + rest;
    var body := [lo, '-', hi, '!'] + rest;
    assert body == [lo, '-', hi] + bang;
    var tail := ParseItems(rest);
    var items := ParseItems(body);
    assert items == [Span(lo, hi)] + ([Single('!')] + tail) by {
      BangItems(rest);
      LeadingSpanItems(lo, hi, bang);
    }
    var live := LiveItems(items);
    assert live == [Single('!')] + tail by {
      EmptySpanThenBang(lo, hi, tail);
    }
    assert ClassToken(body) == CharClass(true, tail) by {
      assert live[0] == Single('!') && live[1..] == tail;
      BangAfterEmptySpans(body);
    }
    assert ClassToken(bang) == CharClass(true, tail) by {
      assert bang[1..] == rest;
    }
  }

  /** A body whose first live item is a `!` is negated, and the `!` is dropped. */
  lemma BangAfterEmptySpans(body: string)
    requires body != [] && body[0] != '!'
    requires LiveItems(ParseItems(body)) != [] && LiveItems(ParseItems(body))[0] == Single('!')
    ensures ClassToken(body) == CharClass(true, LiveItems(ParseItems(body))[1..])
  {
  }

  lemma EmptySpanThenBang(lo: char, hi: char, items: seq<ClassItem>)
    requires hi < lo
    ensures LiveItems([Span(lo, hi)] + ([Single('!')] + items)) == [Single('!')] + items
  {
    var all := [Span(lo, hi)] + ([Single('!')] + items);
    assert all[1..] == [Single('!')] + items;
  }

  lemma BangItems(rest: string)
    requires rest == [] || rest[0] != '-'
    ensures ParseItems("!" + rest) == [Single('!')] + ParseItems(rest)
  {
    var bang := "!" + rest;
    assert bang[1..] == rest;
    assert |bang| >= 3 ==> bang[1] != '-';
  }

  lemma LeadingSpanItems(lo: char, hi: char, tail: string)
    ensures ParseItems([lo, '-', hi] + tail) == [Span(lo, hi)] + ParseItems(tail)
  {
    var body := [lo, '-', hi] + tail;
    assert body[1] == '-' && body[3..] == tail;
  }

  /** `[c-a!]` accepts every character and `[c-a!x]` every character but `x`. */
  lemma EmptyRangeBeforeBangExample()
    ensures Fnmatch("x", "[c-a!]") && Fnmatch("y", "[c-a!x]") && !Fnmatch("x", "[c-a!x]")
  {
    BangAloneAfterEmptyRange('x');
    BangWithMemberAfterEmptyRange('x');
    BangWithMemberAfterEmptyRange('y');
  }

  lemma BangClassesClose()
    ensures ClassClose("[c-a!]") == Some(5) && ClassClose("[c-a!x]") == Some(6)
  {
    var p, q := "[c-a!]", "[c-a!x]";
    assert ClassStart(p) == 1 && p[5] == ']';
    assert forall k :: 1 <= k < 5 ==> p[k] != ']';
    ClassCloseAt(p, 5);
    assert ClassStart(q) == 1 && q[6] == ']';
    assert forall k :: 1 <= k < 6 ==> q[k] != ']';
    ClassCloseAt(q, 6);
  }

  lemma BangAloneAfterEmptyRange(c: char)
    ensures Fnmatch([c], "[c-a!]")
  {
    var pat := "[c-a!]";
    assert pat[1..5] == ['c', '-', 'a', '!'];
    BangClassesClose();
    SingleClassPattern(c, pat);
    BangAfterEmptyRangeAcceptsAll('c', 'a', c);
  }

  lemma BangAfterEmptyRangeAcceptsAll(lo: char, hi: char, c: char)
    requires hi < lo && lo != '!'
    ensures Accepts(ClassToken([lo, '-', hi, '!']), c)
  {
    EmptyRangeBeforeBang(lo, hi, []);
    assert [lo, '-', hi, '!'] + [] == [lo, '-', hi, '!'];
  }

  lemma BangWithMemberAfterEmptyRange(c: char)
    ensures Fnmatch([c], "[c-a!x]") <==> c != 'x'
  {
    var pat := "[c-a!x]";
    assert pat[1..6] == ['c', '-', 'a', '!', 'x'];
    BangClassesClose();
    SingleClassPattern(c, pat);
    BangAfterEmptyRangeNegates('c', 'a', 'x', c);
  }

  lemma BangAfterEmptyRangeNegates(lo: char, hi: char, x: char, c: char)
    requires hi < lo && lo != '!' && x != '-'
    ensures Accepts(ClassToken([lo, '-', hi, '!', x]), c) <==> c != x
  {
    EmptyRangeBeforeBang(lo, hi, [x]);
    assert [lo, '-', hi, '!'] + [x] == [lo, '-', hi, '!', x];
    assert ParseItems([x]) == [Single(x)] by {
      assert [x][1..] == [];
    }
    assert SomeItemContains([Single(x)], c) <==> c == x by {
      assert [Single(x)][1..] == [];
    }
  }

  /** An unclosed `[` is an ordinary character. */
  lemma UnclosedBracketExample()
    ensures Fnmatch("[ab", "[ab") && !Fnmatch("a", "[ab")
  {
    PlainPatternMatchesIffEqual("[ab", "[ab");
    PlainPatternMatchesIffEqual("a", "[ab");
  }
}

=== FILE: interop.dfy ===
/** The client and the emulator together: what `Device.connect` writes is what
    the emulator's connection loop reads, and the emulator's reply, decoded, is
    what `connect` decides on. */
module Interop {

  import opened Wrappers
  import Json
  import Emulator
  import Session
  import Client

  /** The emulator's transcript, by the loop as written, for a fresh
      connection on which the client has written its messages. */
  function EmulatorTranscript(cfg: Emulator.Config, messages: seq<string>): Session.Transcript
  {
    Session.ServeAsWritten(cfg, Received(messages))
  }

  function Received(messages: seq<string>): (events: seq<Session.Event>)
    ensures |events| == |messages|
    ensures forall i :: 0 <= i < |messages| ==> events[i] == Session.Received(messages[i])
  {
    if messages == [] then [] else [Session.Received(messages[0])] + Received(messages[1..])
  }

  /** For every token `t`, a disconnected device that connects with `t` to an
      emulator configured with token `cfg.apiToken` ends connected iff `t` is
      that token; the emulator answers the one message exactly once, and the
      connection stays open on its side iff authentication succeeded. */
  lemma ConnectAgainstEmulator(d: Client.Device, cfg: Emulator.Config, t: string, sock: Client.Handle)
    requires d.sock.None?
    ensures var server := EmulatorTranscript(cfg, [Client.AuthMessage(t)]);
            |server.replies| == 1
            && (server.final == Session.Authenticated <==> t == cfg.apiToken)
            && (server.final == Session.Closed <==> t != cfg.apiToken)
            && var e := Client.Connect(d, t, Client.Answered(sock, Emulator.ToJson(server.replies[0])));
               e.sent == [Client.AuthMessage(t)]
               && (e.device.sock.Some? <==> t == cfg.apiToken)
  {
    var message := Client.AuthMessage(t);
    assert Received([message]) == [Session.Received(message)];
    Emulator.AuthAcceptsExactlyToken(cfg, t);
    assert message != [];
    var events := [Session.Received(message)];
    assert events[1..] == [];
    var server := EmulatorTranscript(cfg, [message]);
    var reply := Emulator.AuthCommand(cfg, message);
    var o := Session.Step(cfg, Session.AwaitingAuth, events[0]);
    assert o.reply == Some(reply);
    assert o.next == Session.Authenticated <==> t == cfg.apiToken;
    assert Session.RunFrom(cfg, o.next, events[1..]) == Session.Transcript([], o.next);
    assert server.replies == [reply];
    assert server.final == o.next;
    assert server.final == (if t == cfg.apiToken then Session.Authenticated else Session.Closed);
  }

  /** The exchange of the client tests: connect with the right token, send
      `auth <token>` again on the open session, then disconnect; every answer
      is OKAY and the device ends disconnected. */
  lemma ConnectSendDisconnect(cfg: Emulator.Config, addr: string, port: int, sock: Client.Handle)
    ensures var d0 := Client.NewDevice(addr, port);
            var message := Client.AuthMessage(cfg.apiToken);
            var server := EmulatorTranscript(cfg, [message, message]);
            |server.replies| == 2
            && var e1 := Client.Connect(d0, cfg.apiToken, Client.Answered(sock, Emulator.ToJson(server.replies[0])));
               var e2 := Client.Send(e1.device, message, Client.Delivered(Emulator.ToJson(server.replies[1])));
               var e3 := Client.Disconnect(e2.device, Client.CloseOk);
               e1.sent + e2.sent == [message, message]
               && e1.answer.Returned? && Json.IsOkay(e1.answer.response)
               && e2.answer.Returned? && Json.IsOkay(e2.answer.response)
               && e3.answer.Returned? && Json.IsOkay(e3.answer.response)
               && e3.device.sock.None?
  {
    var message := Client.AuthMessage(cfg.apiToken);
    var events := Received([message, message]);
    assert events == [Session.Received(message), Session.Received(message)];
    Session.ReauthTwice(cfg);
  }
}

=== FILE: json.dfy ===
/** Decoded JSON reply objects, as `json.loads` hands them to the client.
    Encoding and decoding text is not modelled; only the decoded shape is. */
module Json {

  datatype Value = JStr(s: string) | JInt(i: int)

  type Obj = map<string, Value>

  /** `{"status":"OKAY"}` */
  function Okay(): Obj
  {
    map["status" := JStr("OKAY")]
  }

  /** `{"status":"ERROR","error-message":<message>}` */
  function Error(message: string): Obj
  {
    map["status" := JStr("ERROR"), "error-message" := JStr(message)]
  }

  /** Python's `obj.get("status") == "OKAY"`. */
  function IsOkay(obj: Obj): (ok: bool)
    ensures obj == Okay() ==> ok
    ensures forall message :: obj == Error(message) ==> !ok
    ensures ok ==> obj != map[]
  {
    "status" in obj && obj["status"] == JStr("OKAY")
  }
}

=== FILE: session.dfy ===
/** One accepted TCP connection of the emulator: the body of the per-connection
    loop. What the socket delivers is given as a sequence of events; the
    transcript is the replies sent back and the state the connection ends in. */
module Session {

  import opened Wrappers
  import Json
  import Emulator
  import Glob

  datatype ConnState = AwaitingAuth | Authenticated | Closed

  /** What one turn of the loop observes. */
  datatype Event =
    | Received(data: string)   // one `recv`; the empty payload means the peer closed
    | RecvFailed               // `recv` raised an error other than a timeout
    | RecvTimedOut             // `recv` waited its 100 ms without data
    | Stopped                  // the server's running flag was found false

  /** The reply sent (if any) and the state after one event. */
  datatype StepResult = StepResult(reply: Option<Emulator.Reply>, next: ConnState)

  datatype Transcript = Transcript(replies: seq<Emulator.Reply>, final: ConnState)

  /** An event after which the loop exits. */
  predicate EndsConnection(e: Event)
  {
    e.Stopped? || e.RecvFailed? || (e.Received? && e.data == [])
  }

  /** One turn of the loop. Before authentication every payload goes to the
      `auth` handler, whatever its first word; afterwards every payload goes
      through the dispatcher. A failed first authentication closes the
      connection. A receive timeout leaves the state as it is. */
  function Step(cfg: Emulator.Config, st: ConnState, e: Event): (o: StepResult)
    ensures st == Closed ==> o == StepResult(None, Closed)
    ensures st != Closed && EndsConnection(e) ==> o == StepResult(None, Closed)
    ensures e.RecvTimedOut? ==> o == StepResult(None, st)
    ensures o.reply.Some? <==> st != Closed && e.Received? && e.data != []
    ensures st == AwaitingAuth && o.reply.Some? ==>
              o.reply.value == Emulator.AuthCommand(cfg, e.data)
              && (o.next == Authenticated <==> o.reply.value == Emulator.Okay)
              && (o.next == Closed <==> o.reply.value == Emulator.AuthFailed)
    ensures st == Authenticated ==> o.next != AwaitingAuth
    ensures st == Authenticated && o.reply.Some? ==>
              o.reply.value == Emulator.CommandInvoke(cfg, e.data) && o.next == Authenticated
  {
    if st == Closed then StepResult(None, Closed)
    else
      match e
      case Stopped => StepResult(None, Closed)
      case RecvFailed => StepResult(None, Closed)
      case RecvTimedOut => StepResult(None, st)
      case Received(data) =>
        if data == [] then StepResult(None, Closed)
        else if st == AwaitingAuth then
          var response := Emulator.AuthCommand(cfg, data);
          StepResult(Some(response), if Json.IsOkay(Emulator.ToJson(response)) then Authenticated else Closed)
        else
          StepResult(Some(Emulator.CommandInvoke(cfg, data)), Authenticated)
  }

  function ReplyList(r: Option<Emulator.Reply>): seq<Emulator.Reply>
  {
    if r.Some? then [r.value] else []
  }

  /** The loop from state `st` over the events it reads; once closed, nothing
      more is read. */
  function RunFrom(cfg: Emulator.Config, st: ConnState, events: seq<Event>): (t: Transcript)
    ensures |t.replies| <= |events|
    ensures st == Closed ==> t == Transcript([], Closed)
    ensures st == Authenticated ==> t.final != AwaitingAuth
    ensures t.final == AwaitingAuth ==> t.replies == []
    decreases |events|
  {
    if events == [] || st == Closed then Transcript([], st)
    else
      var o := Step(cfg, st, events[0]);
      var rest := RunFrom(cfg, o.next, events[1..]);
      Transcript(ReplyList(o.reply) + rest.replies, rest.final)
  }

  /** A freshly accepted connection; its transcript is the closed form
      `Expected` given below. */
  function Serve(cfg: Emulator.Config, events: seq<Event>): (t: Transcript)
    ensures t == Expected(cfg, events)
  {
    AwaitingRun(cfg, events);
    RunFrom(cfg, AwaitingAuth, events)
  }

  // ---------------------------------------------------------------------------
  // Reference description of a connection

  /** Whether the events contain one that ends the connection. */
  predicate HasEnd(events: seq<Event>)
  {
    exists i :: 0 <= i < |events| && EndsConnection(events[i])
  }

  /** The payloads the loop reads before the first ending event, timeouts skipped. */
  function LivePayloads(events: seq<Event>): (ps: seq<string>)
    ensures forall i :: 0 <= i < |ps| ==> ps[i] != []
    decreases |events|
  {
    if events == [] || EndsConnection(events[0]) then []
    else if events[0].RecvTimedOut? then LivePayloads(events[1..])
    else [events[0].data] + LivePayloads(events[1..])
  }

  /** The dispatcher's reply to each payload, in order. */
  function DispatchAll(cfg: Emulator.Config, ps: seq<string>): (rs: seq<Emulator.Reply>)
    ensures |rs| == |ps|
    ensures forall i :: 0 <= i < |ps| ==> rs[i] == Emulator.CommandInvoke(cfg, ps[i])
  {
    if ps == [] then [] else [Emulator.CommandInvoke(cfg, ps[0])] + DispatchAll(cfg, ps[1..])
  }

  /** What a connection does, stated without the loop: the first payload is an
      authentication attempt; if it fails, its error is the only reply; if it
      succeeds, every later payload is dispatched; the connection is closed iff
      an ending event arrived or the authentication failed. */
  function Expected(cfg: Emulator.Config, events: seq<Event>): Transcript
  {
    var ps := LivePayloads(events);
    if ps == [] then Transcript([], if HasEnd(events) then Closed else AwaitingAuth)
    else if Emulator.AuthCommand(cfg, ps[0]) == Emulator.AuthFailed then Transcript([Emulator.AuthFailed], Closed)
    else Transcript([Emulator.Okay] + DispatchAll(cfg, ps[1..]), if HasEnd(events) then Closed else Authenticated)
  }

  lemma HasEndStep(events: seq<Event>)
    requires events != []
    ensures HasEnd(events) <==> EndsConnection(events[0]) || HasEnd(events[1..])
  {
    if HasEnd(events[1..]) {
      var i :| 0 <= i < |events[1..]| && EndsConnection(events[1..][i]);
      assert events[i + 1] == events[1..][i];
    }
    if HasEnd(events) && !EndsConnection(events[0]) {
      var i :| 0 <= i < |events| && EndsConnection(events[i]);
      assert events[1..][i - 1] == events[i];
    }
  }

  /** Once authenticated, each live payload is dispatched and answered in turn. */
  lemma {:induction false} AuthenticatedRun(cfg: Emulator.Config, events: seq<Event>)
    ensures RunFrom(cfg, Authenticated, events)
         == Transcript(DispatchAll(cfg, LivePayloads(events)), if HasEnd(events) then Closed else Authenticated)
    decreases |events|
  {
    if events != [] {
      HasEndStep(events);
      if !EndsConnection(events[0]) {
        AuthenticatedRun(cfg, events[1..]);
        if events[0].Received? {
          var ps := LivePayloads(events);
          assert ps[1..] == LivePayloads(events[1..]);
        }
      }
    }
  }

  /** Before authentication: timeouts are skipped, an ending event closes
      silently, and the first payload decides the rest. */
  lemma {:induction false} AwaitingRun(cfg: Emulator.Config, events: seq<Event>)
    ensures RunFrom(cfg, AwaitingAuth, events) == Expected(cfg, events)
    decreases |events|
  {
    if events != [] {
      HasEndStep(events);
      if events[0].RecvTimedOut? {
        AwaitingRun(cfg, events[1..]);
      } else if events[0].Received? && events[0].data != [] {
        var ps := LivePayloads(events);
        assert ps[0] == events[0].data && ps[1..] == LivePayloads(events[1..]);
        if Emulator.AuthCommand(cfg, events[0].data) == Emulator.Okay {
          AuthenticatedRun(cfg, events[1..]);
        }
      }
    }
  }

  // ---------------------------------------------------------------------------
  // Properties of a connection

  /** While unauthenticated, the first payload, whatever its first word, is
      answered by the `auth` handler and not by the dispatcher. */
  lemma FirstPayloadIsAuthAttempt(cfg: Emulator.Config, p: string, rest: seq<Event>)
    requires p != []
    ensures |Serve(cfg, [Received(p)] + rest).replies| >= 1
    ensures Serve(cfg, [Received(p)] + rest).replies[0] == Emulator.AuthCommand(cfg, p)
  {
    var events := [Received(p)] + rest;
    assert events[0] == Received(p) && events[1..] == rest;
  }

  /** A malformed first message such as `xyz` is rejected like a wrong token
      (for a non-empty token) and ends the connection. */
  lemma MalformedFirstMessageRejected(cfg: Emulator.Config, rest: seq<Event>)
    requires cfg.apiToken != []
    ensures Serve(cfg, [Received("xyz")] + rest) == Transcript([Emulator.AuthFailed], Closed)
  {
    var events := [Received("xyz")] + rest;
    assert events[0] == Received("xyz") && events[1..] == rest;
  }

  /** A failed first authentication gets exactly one ERROR reply and closes the
      connection: nothing sent afterwards is answered, the right token included. */
  lemma FailedAuthClosesConnection(cfg: Emulator.Config, p: string, rest: seq<Event>)
    requires p != [] && Emulator.AuthCommand(cfg, p) == Emulator.AuthFailed
    ensures Serve(cfg, [Received(p)] + rest) == Transcript([Emulator.AuthFailed], Closed)
  {
    var events := [Received(p)] + rest;
    assert events[0] == Received(p) && events[1..] == rest;
  }

  /** Once authenticated the connection never goes back to awaiting
      authentication, and a wrong-token `auth` is answered with ERROR without
      closing the connection or dropping the authentication. */
  lemma WrongReauthKeepsSession(cfg: Emulator.Config, t: string, rest: seq<Event>)
    requires t != cfg.apiToken
    ensures RunFrom(cfg, Authenticated, [Received("auth " + t)] + rest)
         == Transcript([Emulator.AuthFailed] + RunFrom(cfg, Authenticated, rest).replies,
                       RunFrom(cfg, Authenticated, rest).final)
  {
    var events := [Received("auth " + t)] + rest;
    assert events[0] == Received("auth " + t) && events[1..] == rest;
    Emulator.AuthAcceptsExactlyToken(cfg, t);
  }

  /** Authenticating twice with the right token is answered OKAY both times. */
  lemma ReauthTwice(cfg: Emulator.Config)
    ensures Serve(cfg, [Received("auth " + cfg.apiToken), Received("auth " + cfg.apiToken)])
         == Transcript([Emulator.Okay, Emulator.Okay], Authenticated)
  {
    var message := "auth " + cfg.apiToken;
    Emulator.AuthAcceptsExactlyToken(cfg, cfg.apiToken);
    assert message != [];
    var events := [Received(message), Received(message)];
    assert events[1..] == [Received(message)];
    assert RunFrom(cfg, Authenticated, [Received(message)]) == Transcript([Emulator.Okay], Authenticated) by {
      assert [Received(message)][1..] == [];
    }
  }

  /** An unsupported command on an authenticated connection is answered with
      the "not supported" error and the connection stays open. */
  lemma UnsupportedKeepsSession(cfg: Emulator.Config, rest: seq<Event>)
    ensures RunFrom(cfg, Authenticated, [Received("xyz")] + rest)
         == Transcript([Emulator.Unsupported] + RunFrom(cfg, Authenticated, rest).replies,
                       RunFrom(cfg, Authenticated, rest).final)
  {
    var events := [Received("xyz")] + rest;
    assert events[0] == Received("xyz") && events[1..] == rest;
    Emulator.UnsupportedExamples(cfg);
  }

  /** An empty payload ends the connection without a reply, in any state. */
  lemma EmptyPayloadEndsSilently(cfg: Emulator.Config, st: ConnState, rest: seq<Event>)
    ensures RunFrom(cfg, st, [Received([])] + rest) == Transcript([], Closed)
  {
    var events := [Received([])] + rest;
    assert events[0] == Received([]);
  }

  /** Every payload read before the connection ends gets exactly one reply,
      unless the first one fails authentication. */
  lemma OneReplyPerMessage(cfg: Emulator.Config, events: seq<Event>)
    ensures var t := Serve(cfg, events);
            var ps := LivePayloads(events);
            (ps != [] && Emulator.AuthCommand(cfg, ps[0]) == Emulator.AuthFailed ==> |t.replies| == 1)
            && (ps == [] || Emulator.AuthCommand(cfg, ps[0]) == Emulator.Okay ==> |t.replies| == |ps|)
  {
  }

  // ---------------------------------------------------------------------------
  // Receive timeouts: the loop as written, and as its comments intend

  /** One turn of the loop as written: `socket.timeout` is a subclass of
      `OSError`, so a `recv` that waits 100 ms without data is caught by
      `except OSError: break` and ends the connection. */
  function StepAsWritten(cfg: Emulator.Config, st: ConnState, e: Event): (o: StepResult)
    ensures e.RecvTimedOut? ==> o == StepResult(None, Closed)
    ensures !e.RecvTimedOut? ==> o == Step(cfg, st, e)
  {
    if e.RecvTimedOut? then StepResult(None, Closed) else Step(cfg, st, e)
  }

  /** The loop as written, from state `st`. */
  function RunAsWritten(cfg: Emulator.Config, st: ConnState, events: seq<Event>): (t: Transcript)
    ensures |t.replies| <= |events|
    ensures st == Closed ==> t == Transcript([], Closed)
    ensures st == Authenticated ==> t.final != AwaitingAuth
    ensures t.final == AwaitingAuth ==> t.replies == []
    ensures (exists i :: 0 <= i < |events| && events[i].RecvTimedOut?) ==> t.final == Closed
    decreases |events|
  {
    if events == [] || st == Closed then Transcript([], st)
    else
      var o := StepAsWritten(cfg, st, events[0]);
      var rest := RunAsWritten(cfg, o.next, events[1..]);
      Transcript(ReplyList(o.reply) + rest.replies, rest.final)
  }

  /** A freshly accepted connection, as written; without timeouts it has the
      closed-form transcript `Expected`. */
  function ServeAsWritten(cfg: Emulator.Config, events: seq<Event>): (t: Transcript)
    ensures (forall i :: 0 <= i < |events| ==> !events[i].RecvTimedOut?) ==> t == Expected(cfg, events)
  {
    if forall i :: 0 <= i < |events| ==> !events[i].RecvTimedOut? then
      AsWrittenAgreesWithoutTimeouts(cfg, AwaitingAuth, events);
      AwaitingRun(cfg, events);
      RunAsWritten(cfg, AwaitingAuth, events)
    else
      RunAsWritten(cfg, AwaitingAuth, events)
  }

  /** The two loops differ only on timeouts. */
  lemma {:induction false} AsWrittenAgreesWithoutTimeouts(cfg: Emulator.Config, st: ConnState, events: seq<Event>)
    requires forall i :: 0 <= i < |events| ==> !events[i].RecvTimedOut?
    ensures RunAsWritten(cfg, st, events) == RunFrom(cfg, st, events)
    decreases |events|
  {
    if events != [] && st != Closed {
      AsWrittenAgreesWithoutTimeouts(cfg, Step(cfg, st, events[0]).next, events[1..]);
    }
  }

  /** As written, the first timeout ends the connection: the transcript is
      the corrected loop's replies to the events before it, and the state is
      closed. With `AsWrittenAgreesWithoutTimeouts` this covers every input. */
  lemma {:induction false} AsWrittenUpToFirstTimeout(cfg: Emulator.Config, st: ConnState, events: seq<Event>, i: nat)
    requires i < |events| && events[i].RecvTimedOut?
    requires forall k :: 0 <= k < i ==> !events[k].RecvTimedOut?
    ensures RunAsWritten(cfg, st, events) == Transcript(RunFrom(cfg, st, events[..i]).replies, Closed)
    decreases i
  {
    if st != Closed && i > 0 {
      assert events[..i][0] == events[0] && events[..i][1..] == events[1..][..i - 1];
      AsWrittenUpToFirstTimeout(cfg, Step(cfg, st, events[0]).next, events[1..], i - 1);
    }
  }

  /** The whole connection as written, in closed form: up to the first
      timeout it is `Expected` for the events before it, and then closed. */
  lemma ServeAsWrittenMatchesExpected(cfg: Emulator.Config, events: seq<Event>, i: nat)
    requires i < |events| && events[i].RecvTimedOut?
    requires forall k :: 0 <= k < i ==> !events[k].RecvTimedOut?
    ensures ServeAsWritten(cfg, events) == Transcript(Expected(cfg, events[..i]).replies, Closed)
  {
    AsWrittenUpToFirstTimeout(cfg, AwaitingAuth, events, i);
    assert Serve(cfg, events[..i]) == Expected(cfg, events[..i]);
  }

  /** The events of a client that authenticates, stays idle for one receive
      period, then asks `discover *`. */
  function IdleThenDiscover(cfg: Emulator.Config): seq<Event>
  {
    [Received("auth " + cfg.apiToken), RecvTimedOut, Received("discover *")]
  }

  /** As written, the idle period has already closed the connection, so the
      query goes unanswered. */
  lemma IdleClientDroppedAsWritten(cfg: Emulator.Config)
    ensures ServeAsWritten(cfg, IdleThenDiscover(cfg)) == Transcript([Emulator.Okay], Closed)
  {
    var events := IdleThenDiscover(cfg);
    Emulator.AuthAcceptsExactlyToken(cfg, cfg.apiToken);
    assert events[0].data != [];
    assert StepAsWritten(cfg, AwaitingAuth, events[0]) == StepResult(Some(Emulator.Okay), Authenticated);
    assert events[1..][0] == RecvTimedOut;
    assert RunAsWritten(cfg, Authenticated, events[1..]) == Transcript([], Closed);
  }

  /** With timeouts skipped, the same client gets its discovery reply. */
  lemma IdleClientServed(cfg: Emulator.Config)
    ensures Serve(cfg, IdleThenDiscover(cfg)) == Transcript([Emulator.Okay, Emulator.Identity(cfg)], Authenticated)
  {
    var events := IdleThenDiscover(cfg);
    var tail := [RecvTimedOut, Received("discover *")];
    assert events == [events[0]] + tail;
    RightTokenAuthenticates(cfg);
    IdleThenDiscoverAuthenticated(cfg);
    assert RunFrom(cfg, AwaitingAuth, events)
        == Transcript([Emulator.Okay] + RunFrom(cfg, Authenticated, events[1..]).replies,
                      RunFrom(cfg, Authenticated, events[1..]).final);
  }

  lemma RightTokenAuthenticates(cfg: Emulator.Config)
    ensures Step(cfg, AwaitingAuth, Received("auth " + cfg.apiToken)) == StepResult(Some(Emulator.Okay), Authenticated)
  {
    Emulator.AuthAcceptsExactlyToken(cfg, cfg.apiToken);
  }

  /** On an authenticated connection, an idle period and then `discover *`
      are answered with the identity, with timeouts skipped. */
  lemma IdleThenDiscoverAuthenticated(cfg: Emulator.Config)
    ensures RunFrom(cfg, Authenticated, [RecvTimedOut, Received("discover *")])
         == Transcript([Emulator.Identity(cfg)], Authenticated)
  {
    var events := [RecvTimedOut, Received("discover *")];
    var tail := [Received("discover *")];
    assert events[1..] == tail && tail[1..] == [];
    DiscoverStarFindsEmulator(cfg);
    assert Step(cfg, Authenticated, tail[0]) == StepResult(Some(Emulator.Identity(cfg)), Authenticated);
  }

  lemma DiscoverStarFindsEmulator(cfg: Emulator.Config)
    ensures Emulator.CommandInvoke(cfg, "discover *") == Emulator.Identity(cfg)
  {
    Emulator.DiscoverMatchesArgument(cfg, "*");
    assert "discover " + "*" == "discover *";
    Glob.StarMatchesEveryName(cfg.service);
  }

  function WithoutTimeouts(events: seq<Event>): (r: seq<Event>)
    ensures |r| <= |events|
    ensures forall i :: 0 <= i < |r| ==> !r[i].RecvTimedOut?
  {
    if events == [] then []
    else if events[0].RecvTimedOut? then WithoutTimeouts(events[1..])
    else [events[0]] + WithoutTimeouts(events[1..])
  }

  /** With timeouts skipped, an idle period changes nothing: the connection
      behaves as if the timeouts had not happened. */
  lemma {:induction false} TimeoutsAreTransparent(cfg: Emulator.Config, st: ConnState, events: seq<Event>)
    ensures RunFrom(cfg, st, events) == RunFrom(cfg, st, WithoutTimeouts(events))
    decreases |events|
  {
    if events != [] && st != Closed {
      var filtered := WithoutTimeouts(events);
      if events[0].RecvTimedOut? {
        TimeoutsAreTransparent(cfg, st, events[1..]);
      } else {
        assert filtered[0] == events[0] && filtered[1..] == WithoutTimeouts(events[1..]);
        TimeoutsAreTransparent(cfg, Step(cfg, st, events[0]).next, events[1..]);
      }
    }
  }
}

=== FILE: text.dfy ===
/** String primitives of Python that the protocol code leans on:
    `s.split(" ")[0]`, the slice `s[n:]`, and `str(int)`. */
module Text {

  import opened Wrappers

  /** Python's `s.split(" ")[0]`: the longest prefix of `s` holding no space. */
  function FirstWord(s: string): (w: string)
    ensures w <= s
    ensures ' ' !in w
    ensures |w| < |s| ==> s[|w|] == ' '
  {
    if s == [] || s[0] == ' ' then [] else [s[0]] + FirstWord(s[1..])
  }

  /** The three properties of `FirstWord` pin it down: any space-free prefix
      followed by a space (or by the end) is the first word. */
  lemma FirstWordUnique(s: string, w: string)
    requires w <= s && ' ' !in w
    requires |w| < |s| ==> s[|w|] == ' '
    ensures FirstWord(s) == w
  {
  }

  /** A space-free word followed by a space and anything is split at that space. */
  lemma FirstWordOfSpaced(w: string, rest: string)
    requires ' ' !in w
    ensures FirstWord(w + " " + rest) == w
  {
    FirstWordUnique(w + " " + rest, w);
  }

  /** Python's slice `s[n:]` for a non-negative `n`: empty when `n` is past the end. */
  function SliceFrom(s: string, n: nat): (r: string)
    ensures n <= |s| ==> s[..n] + r == s
    ensures n > |s| ==> r == []
  {
    if n <= |s| then s[n..] else []
  }

  predicate IsDigit(c: char)
  {
    '0' <= c <= '9'
  }

  predicate AllDigits(s: string)
  {
    forall i :: 0 <= i < |s| ==> IsDigit(s[i])
  }

  function DigitChar(d: nat): (c: char)
    requires d < 10
    ensures IsDigit(c)
  {
    "0123456789"[d]
  }

  function DigitValue(c: char): (d: nat)
    requires IsDigit(c)
    ensures d < 10
  {
    (c as int - '0' as int) as nat
  }

  lemma DigitRoundTrip(d: nat)
    requires d < 10
    ensures DigitValue(DigitChar(d)) == d
  {
  }

  /** Decimal digits of a natural number, most significant first, without leading zeros. */
  function NatToDecimal(n: nat): (s: string)
    ensures |s| >= 1 && AllDigits(s)
    ensures |s| > 1 ==> s[0] != '0'
    decreases n
  {
    if n < 10 then [DigitChar(n)] else NatToDecimal(n / 10) + [DigitChar(n % 10)]
  }

  /** The value of a string of decimal digits. */
  function DecimalValue(s: string): nat
    requires AllDigits(s)
    decreases |s|
  {
    if s == [] then 0 else DecimalValue(s[..|s| - 1]) * 10 + DigitValue(s[|s| - 1])
  }

  lemma {:induction false} DecimalRoundTrip(n: nat)
    ensures DecimalValue(NatToDecimal(n)) == n
    decreases n
  {
    if n < 10 {
      DigitRoundTrip(n);
    } else {
      var s := NatToDecimal(n);
      assert s[..|s| - 1] == NatToDecimal(n / 10);
      DecimalRoundTrip(n / 10);
      DigitRoundTrip(n % 10);
    }
  }

  /** Python's `str(i)` for an integer: a minus sign for negatives, then the decimal digits. */
  function IntToString(i: int): (s: string)
    ensures |s| >= 1
    ensures (s[0] == '-') <==> i < 0
  {
    if i < 0 then "-" + NatToDecimal(-i) else NatToDecimal(i)
  }

  /** Reads back an optionally signed decimal string; `None` when it is not one. */
  function ParseInt(s: string): Option<int>
  {
    if s != [] && s[0] == '-' then
      if AllDigits(s[1..]) && s[1..] != [] then Some(-(DecimalValue(s[1..]) as int)) else None
    else if AllDigits(s) && s != [] then Some(DecimalValue(s))
    else None
  }

  /** `str(int)` loses nothing: the number can be read back from its text. */
  lemma IntToStringRoundTrip(i: int)
    ensures ParseInt(IntToString(i)) == Some(i)
  {
    if i < 0 {
      assert IntToString(i) == "-" + NatToDecimal(-i);
      NegativeRoundTrip(-i);
    } else {
      NonNegativeRoundTrip(i);
    }
  }

  lemma NegativeRoundTrip(n: nat)
    ensures ParseInt("-" + NatToDecimal(n)) == Some(-(n as int))
  {
    var d := NatToDecimal(n);
    ParseSigned(d);
    DecimalRoundTrip(n);
  }

  lemma ParseSigned(d: string)
    requires d != [] && AllDigits(d)
    ensures ParseInt("-" + d) == Some(-(DecimalValue(d) as int))
  {
    var s := "-" + d;
    assert s[0] == '-' && s[1..] == d;
  }

  lemma NonNegativeRoundTrip(i: int)
    requires i >= 0
    ensures ParseInt(IntToString(i)) == Some(i)
  {
    var s := IntToString(i);
    var d := NatToDecimal(i);
    assert s == d && d != [] && AllDigits(d);
    assert s[0] != '-';
    assert DecimalValue(d) == i by {
      DecimalRoundTrip(i);
    }
  }
}

=== FILE: wrappers.dfy ===
/** The optional-value datatype used throughout the model, in place of Python's None. */
module Wrappers {

  datatype Option<+T> = None | Some(value: T)
}
